=== FILE: README.md ===
# Real-estate admin: a verified model of its core

This project models the core of a server-rendered admin application for
real-estate listings. The application is written in TypeScript over an ORM
and a local upload folder. Each core source file is one Dafny module:

- **Image list** (`ImageList`). This is the client-held list of uploaded
  images in the listing form. It covers adding uploads up to the image
  limit, choosing the main image, removing an image (with renumbering and
  promotion of a new main image), and moving an image up or down.
- **Upload helpers** (`FileUpload`). This covers validation of the type and
  size of an image, sanitising and uniquifying file names, and saving into
  a temporary folder. It also covers moving temporary files into the
  property's folder and deleting files. The upload folder is a `FileStore`
  object whose set of public URLs the methods update.
- **Upload route** (`UploadRoute`). This is `POST /api/upload`: the session
  check, the empty-request check, per-file validation with the joined error
  message, then the save loop.
- **Property store** (`PropertyStore`). These are the create, update and
  delete server actions. They run over a `Store` object holding the
  property, extension (commercial, land, office, factory), agent and image
  tables. Each action is specified by a function on a snapshot of the
  tables, and the lemmas about those functions state the row-level
  promises.
- **Registration route** (`PropertiesRoute`). This is
  `POST /api/properties`. It is one transaction writing the property, its
  agent row and its image rows. After the commit, the uploaded files are
  moved and the image rows are patched by position in `order`.
- **Bulk import** (`BulkUpload`). This is the spreadsheet import: each row
  is mapped to a record with header fallbacks and defaults, the three
  required checks are applied, and the import aborts at the first bad row.
- **Listing** (`PropertyListing`, with `Sorting`). This is the admin list
  page: filtering on `q` and `type`, newest first, and the count.
- **Property card** (`PropertyCard`). This covers the price text, the type
  and status labels, and the status badge.
- **Search bar and filter** (`PropertySearchBar`, `SearchFilter`, over
  `QueryParams`, the browser's `URLSearchParams`). These are the query
  edits each control makes and the navigation it asks for.
- **Middleware** (`Middleware`). This is the login redirect for admin pages.

`Forms`, `Numbers`, `Text` and `Wrappers` hold shared helpers:
- `FormData` access;
- JavaScript's `Number()` on text;
- trimming and decimal text;
- `Option` and `Result`.

Behaviours of the code that the model keeps as they are:
- Deleting a property removes its rows only; its image files stay in the
  upload folder (`actions/property.ts:136-148`).
- The create action always writes an agent row, but the registration route
  writes one only when the office name or phone is given.
- The agent's phone is read from the form field `agentPhone`.
- Updating a property never removes an extension row left over from an
  earlier property type; `PropertyStore.StaleExtensionAfterTypeChange`
  states it.

## Model

| member | source | states |
|---|---|---|
| ImageList.HandleFiles | components/ui/ImageUploader.tsx:59-101 | Over the image limit, or when the upload fails, the list is unchanged. Otherwise the new images are appended after the old ones, in file order, with `order` continuing the positions. A new image is main only when it is the first one added to an empty list. |
| ImageList.HandleFilesKeepsValid | components/ui/ImageUploader.tsx:85-91 | Adding uploads keeps the list well ordered (each `order` equals its position) with exactly one main image when non-empty. |
| ImageList.SetMain | components/ui/ImageUploader.tsx:103-109 | Exactly the chosen entry is main afterwards; ids, URLs and orders are unchanged. |
| ImageList.SetMainKeepsValid | components/ui/ImageUploader.tsx:103-109 | Choosing an existing entry as main keeps the list valid. |
| ImageList.Renumber | components/ui/ImageUploader.tsx:115-117 | In place on the array: every entry's `order` becomes its index and nothing else changes. |
| ImageList.Remove | components/ui/ImageUploader.tsx:111-125 | Removing an index in range drops exactly that entry; an index out of range drops nothing. The remaining entries keep their relative order, ids and URLs and are renumbered. If no main image remains, the first one is promoted, so at most one main image becomes exactly one. |
| ImageList.WithoutKeepsAtMostOneMain | components/ui/ImageUploader.tsx:112 | Filtering an entry out never creates a second main image. |
| ImageList.PromoteKeepsMainInvariant | components/ui/ImageUploader.tsx:119-122 | Promoting the first entry when none is main gives exactly one main image in a non-empty list. |
| ImageList.MoveUp | components/ui/ImageUploader.tsx:127-139 | At index 0 the list is unchanged. Otherwise the entry swaps with its predecessor, all other entries stay, orders are renumbered, and the main-image invariant is kept. |
| ImageList.MoveDown | components/ui/ImageUploader.tsx:141-153 | At the last index the list is unchanged. Otherwise the entry swaps with its successor, with the same guarantees as a move up. |
| ImageList.SwapKeepsMainInvariant | components/ui/ImageUploader.tsx:130-136 | Swapping two entries' main flags preserves "exactly one main image when non-empty". |
| FileUpload.ValidateImageFile | lib/fileUpload.ts:12-30 | A type outside JPEG/PNG/WebP/GIF is a format error. An allowed type is accepted exactly when its size is at most 5 MB. There are no other errors. |
| FileUpload.SizeLimitIsInclusive | lib/fileUpload.ts:22-27 | A file of exactly 5 242 880 bytes passes, and one byte more is a size error. |
| FileUpload.StripDisallowed | lib/fileUpload.ts:38 | Only word characters, whitespace, dots and hyphens survive. Each of those characters occurs as often as in the input, every other character is gone, and text made only of those characters is unchanged. |
| FileUpload.StripDisallowedAppend | lib/fileUpload.ts:38 | Stripping works character by character: stripping a concatenation strips each part, so the kept characters stay in their order. |
| FileUpload.CollapseSpaces | lib/fileUpload.ts:39 | No whitespace remains; text made of allowed characters stays within them; text without whitespace is unchanged. |
| FileUpload.CollapseSpacesSqueezes | lib/fileUpload.ts:39 | The replacement equals the character-by-character reading `Squeeze`: a whitespace character becomes `-` unless the one before it is whitespace too, and every other character is kept in order, so each whitespace run becomes exactly one `-`. No character other than `-` is introduced. |
| FileUpload.SanitizeFileName | lib/fileUpload.ts:35-41 | The sanitised name consists only of lower-case ASCII letters, digits, `_`, `.` and `-`. |
| FileUpload.SanitizeFixesSafeNames | lib/fileUpload.ts:35-41 | A name that is already safe is left unchanged. |
| FileUpload.SanitizeIdempotent | lib/fileUpload.ts:35-41 | Sanitising twice is sanitising once. |
| FileUpload.LastIndexOf | lib/fileUpload.ts:50 | The result is the last position of the character, or -1 when it does not occur. |
| FileUpload.ExtName | lib/fileUpload.ts:50 | The extension is a suffix of the name. A non-empty one starts with its only `.` and is shorter than the name, so it is the suffix from the last `.`. It is empty exactly for `..` and for names with no `.` after their first character. |
| FileUpload.ExtNameIsSuffix | lib/fileUpload.ts:50-51 | The extension is a suffix of the name, and the base name and extension together give the name back. |
| FileUpload.UniqueFileNameShape | lib/fileUpload.ts:46-54 | The unique name is `<timestamp>-<random>-` followed by the full sanitised original name. |
| Numbers.NatToStringValue | lib/fileUpload.ts:47-53 | The decimal text of a non-negative integer (the timestamp here, and the property id and row number elsewhere) consists of digits whose value is that integer. |
| FileUpload.BaseName | lib/fileUpload.ts:105 | After trailing slashes are trimmed, the base name is the suffix that contains no `/` and is either the whole text or preceded by a `/`: the last path segment. |
| FileUpload.MoveStep | lib/fileUpload.ts:98-117 | A URL outside the temporary folder, or one with no file, is kept as is. A temporary file that exists is renamed to `/uploads/properties/<id>/<basename>`, and that URL is returned. |
| FileUpload.MoveAll | lib/fileUpload.ts:88-125 | One result URL per input URL, in order. Non-temporary URLs are unchanged. |
| FileUpload.TargetIsNotTemp | lib/fileUpload.ts:108 | A moved file's URL no longer lies in the temporary folder. |
| FileUpload.MoveAllDistinct | lib/fileUpload.ts:105-117 | For distinct URLs, each temporary URL whose file exists moves to its target, and each whose file is missing is kept. |
| FileUpload.UntouchedBeforeStep | lib/fileUpload.ts:111-117 | Moving other URLs never changes whether a given temporary file exists. |
| FileUpload.FileStore.Save | lib/fileUpload.ts:59-83 | The URL returned is `/uploads/properties/<folder>/<unique name>`, and exactly that file is added. |
| FileUpload.FileStore.MoveUploadedFiles | lib/fileUpload.ts:88-125 | The loop leaves the folder and the returned URLs exactly as `MoveAll` describes. |
| FileUpload.FileStore.DeleteUploadedFile | lib/fileUpload.ts:130-141 | The file is gone afterwards, whether or not it existed, and nothing else changes. |
| FileUpload.FileStore.DeleteUploadedFiles | lib/fileUpload.ts:146-148 | Exactly the files of the listed URLs are gone. |
| UploadRoute.RejectedIndices | app/api/upload/route.ts:30-37 | Exactly the indices of the files that fail validation, each once, in ascending order. |
| UploadRoute.ValidationErrors | app/api/upload/route.ts:30-37 | There is no error exactly when every file validates. There is exactly one message per rejected file, in ascending file order, and each names its file and gives that file's validation error. |
| UploadRoute.CollectErrors | app/api/upload/route.ts:30-37 | The validation loop collects exactly `ValidationErrors`. |
| UploadRoute.SaveAll | app/api/upload/route.ts:47-51 | The save loop returns one URL per file, in order, and adds exactly those files. |
| UploadRoute.Post | app/api/upload/route.ts:8-57 | No user id: 401 and nothing saved. No files: 400 and nothing saved. Any invalid file: 400 with the joined messages and nothing saved. Otherwise every file is saved and the URLs are returned with the count message. |
| PropertiesRoute.UserIdOf | app/api/properties/route.ts:22-32 | The user id is the session's `id`, else its `email`, else its `sub`, and absent only when all three are empty. |
| PropertiesRoute.ImageOrder | app/api/properties/route.ts:102 | A truthy parsed order is used as given. A missing, zero or non-numeric order falls back to the position. |
| PropertiesRoute.ImageRows | app/api/properties/route.ts:93-107 | One row per URL, in order, for the new property, with that URL, its order, and `isMain` when the index equals `mainImageIndex`. |
| PropertiesRoute.ImageRowsMain | app/api/properties/route.ts:103 | At most one row is main. Without `mainImageIndex` the first row is main. |
| PropertiesRoute.AgentRowOf | app/api/properties/route.ts:79-90 | An agent row is written exactly when the office name or the phone is non-empty, and it carries those form fields. |
| PropertiesRoute.FoundImages | app/api/properties/route.ts:120-123 | The read-back holds exactly the property's images, sorted by ascending `order`. |
| PropertiesRoute.FoundImagesDistinct | app/api/properties/route.ts:120-123 | The read-back lists each image once. |
| PropertiesRoute.PatchedRows | app/api/properties/route.ts:125-130 | The k-th image read back gets the k-th moved URL, for k up to the shorter length. |
| PropertiesRoute.PatchedUntouched | app/api/properties/route.ts:125-130 | Rows outside the patched prefix are unchanged. |
| PropertiesRoute.AfterMovePatches | app/api/properties/route.ts:120-130 | After the post-commit step, the row read back k-th by ascending `order` has the k-th moved URL and its other columns unchanged, for any k below both lengths. |
| PropertiesRoute.AfterMoveUntouched | app/api/properties/route.ts:120-130 | The post-commit step changes only image rows of that property, keeps every image id, and leaves every other table unchanged. |
| PropertiesRoute.WithImagesKeepsValid | app/api/properties/route.ts:97-107 | Inserting image rows of an existing property keeps every table's references valid. |
| PropertiesRoute.TransactionRows | app/api/properties/route.ts:38-110 | The transaction adds one property row under a fresh id and no extension row. The agents table gains exactly the given agent row, when there is one. The new image rows go under consecutive fresh ids. Every older row is kept and the database stays valid. |
| PropertiesRoute.RegistrationRows | app/api/properties/route.ts:38-110 | A registration stores an `AVAILABLE` row owned by the session user. It stores an agent row exactly when `officeName` or `agentPhone` is given, and one image row per URL. |
| PropertiesRoute.PositionalOrdersAlign | app/api/properties/route.ts:120-123 | When every order equals its position, the read-back lists the new rows in URL order. |
| PropertiesRoute.PositionalOrdersPatched | app/api/properties/route.ts:120-130 | When every order equals its position, the row made from the k-th URL becomes that row with the k-th moved URL. So each row receives its own moved URL. |
| PropertiesRoute.ReversedOrdersCross | app/api/properties/route.ts:120-130 | With two images whose orders are reversed, the read-back lists the second row first. |
| PropertiesRoute.CrossedPatch | app/api/properties/route.ts:125-130 | In that case the patch crosses the two URLs: each row gets the other's moved URL. |
| PropertiesRoute.PatchUrls | app/api/properties/route.ts:125-130 | The update loop gives exactly the `Patched` image table, changes nothing else and keeps the store's integrity (`Valid`). |
| PropertiesRoute.InsertProperty | app/api/properties/route.ts:39-90 | The property and agent writes insert one row under the next id, return that id and keep `Valid`. |
| PropertiesRoute.Commit | app/api/properties/route.ts:38-110 | The transaction leaves the store exactly in the `Registration` state, returns the new id and keeps `Valid`. |
| PropertiesRoute.MoveAndPatch | app/api/properties/route.ts:112-130 | The post-commit step moves the files as `MoveAll` describes, patches the read-back rows with the moved URLs and keeps `Valid`. |
| PropertiesRoute.Post | app/api/properties/route.ts:7-142 | No session, or no user id: 401 and nothing written. Otherwise the registration is committed and reported as a success with the new id. Files are moved and rows patched when there are URLs, and a failure of that step leaves the committed rows as they are. `Valid` is kept throughout. |
| PropertyStore.ListingOf | actions/property.ts:23-55 | Each optional number (sale price, deposit, rent, supply area, floors, build year, maintenance fee) is `Forms.OptionalNumber` of its field: null exactly when the field is absent or empty, else `Number()` of its text. Each date is `Forms.OptionalDate` of its field. Falsy rooms and bathrooms become 1, and falsy parking becomes 0. The elevator flag is set exactly when the field is `"true"`. |
| Forms.OptionalNumber | actions/property.ts:25 | An empty or missing field gives null; otherwise the result is `Number()` of the text. |
| Forms.NumberOr | actions/property.ts:35-36 | A falsy `Number()` result (zero, NaN) gives the default, and a truthy one is kept. |
| Forms.OptionalDate | actions/property.ts:42-44 | A date is present exactly when the field is non-empty, and then it is the field's text. |
| PropertyStore.ExtensionOf | actions/property.ts:59-112 | A commercial, land, office or factory row is built exactly when the property type names that table. No other type gets one. |
| PropertyStore.AgentOf | actions/property.ts:115-122 | The agent row takes its phone from the `agentPhone` field. |
| PropertyStore.InsertedRows | actions/property.ts:19-125 | The insert writes the property row under a fresh id, the extension row into its matching table only, and the agent row when given, each with the given values. Every other table, and every other row of the tables it writes, is unchanged. |
| PropertyStore.InsertKeepsValid | actions/property.ts:19-125 | Inserting keeps every table's rows pointing at existing properties and below the id counter. |
| PropertyStore.CreateRows | actions/property.ts:8-125 | A created property is an `AVAILABLE` row owned by the session user. It has an extension row in exactly the table its type names and always an agent row, and the database stays valid. |
| PropertyStore.Store.CreateProperty | actions/property.ts:8-134 | Without a user id the result is unauthenticated and nothing changes. Otherwise the store becomes `Created(...)` and the new id is returned. `Valid` is kept. |
| PropertyStore.WriteExtensionTables | actions/property.ts:195-283 | An extension upsert writes only the table matching the property type. |
| PropertyStore.UpdateFrame | actions/property.ts:155-299 | The update rewrites the row's columns and status but keeps its owner and creation time. It leaves the images, and every extension table other than the type's, as they were, and upserts the agent row. |
| PropertyStore.UpdateIdempotent | actions/property.ts:150-300 | Running the same update twice equals running it once. |
| PropertyStore.StaleExtensionAfterTypeChange | actions/property.ts:194-283 | Changing a commercial property to land leaves the old commercial row in place next to the new land row. |
| PropertyStore.UpdateKeepsValid | actions/property.ts:155-299 | An update keeps the database valid. |
| PropertyStore.Store.UpdateProperty | actions/property.ts:150-300 | A missing id is an error and nothing changes. Otherwise the store becomes `Updated(...)`. `Valid` is kept. |
| PropertyStore.DeleteCascades | actions/property.ts:136-148 | After a delete, no table holds a row of that property, and every row of every other property is kept. |
| PropertyStore.DeleteKeepsValid | actions/property.ts:138-140 | A delete keeps the database valid. |
| PropertyStore.DeleteUndoesInsert | actions/property.ts:138-140 | Deleting a freshly inserted property restores every table; only the id counter has advanced. |
| PropertyStore.Store.DeleteProperty | actions/property.ts:136-148 | A missing id is the delete failure and nothing changes. Otherwise the store becomes `Deleted(...)`. `Valid` is kept. |
| PropertyStore.AddImages | app/api/properties/route.ts:99-106 | The new image rows take consecutive ids from the counter, and every older row is kept. |
| PropertyStore.Store.InsertImages | app/api/properties/route.ts:99-106 | The rows are inserted exactly as `AddImages` describes, and the image counter advances by their number. Rows of existing properties keep `Valid`. |
| PropertyStore.Store.UpdateImageUrl | app/api/properties/route.ts:126-129 | Only that row's URL changes, and `Valid` is kept. |
| PropertyStore.Store.InsertBase | actions/property.ts:21-56 | The property row goes under the next id, which no row used before; the counter advances and `Valid` is kept. |
| PropertyStore.Store.WriteExtensionRow | actions/property.ts:59-112 | Only the table matching the extension's type gains the row for an existing property; `Valid` is kept. |
| PropertyStore.Store.WriteAgentRow | actions/property.ts:115-122 | The property's agent row becomes the given one; `Valid` is kept. |
| PropertyStore.Store.Insert | actions/property.ts:19-125 | One insert transaction leaves the store exactly in the `Inserted` state, returns the next id and keeps `Valid`. |
| PropertyStore.Store.Rewrite | actions/property.ts:155-299 | The update transaction rewrites the base row, the extension row of the form's type and the agent row of an existing property, and keeps `Valid`. |
| BulkUpload.FirstTruthy | actions/bulk-upload.ts:27-30 | The result is the first truthy cell under the listed headers, or nothing when none is truthy. |
| BulkUpload.OptionalNumber | actions/bulk-upload.ts:45 | A falsy cell gives null; otherwise the result is `Number()` of the cell. |
| BulkUpload.RecordOf | actions/bulk-upload.ts:42-67 | The record takes the title, address and area by header fallback. It is owned by the import user with status `AVAILABLE`. The elevator flag is set exactly for `Y`, `true` or `예`. |
| BulkUpload.RowRecord | actions/bulk-upload.ts:26-67 | A row is accepted exactly when its title and address are non-empty and its area is not a number ≤ 0. Otherwise the first failing check gives `<row+2>행: ...`. |
| BulkUpload.MapOrAbort | actions/bulk-upload.ts:26-68 | `data.map` whose first throw aborts the batch: a success holds exactly one value per row. |
| BulkUpload.MapOrAbortOk | actions/bulk-upload.ts:26-68 | The mapping succeeds exactly when every row does, and the records are in row order. |
| BulkUpload.MapOrAbortFirstError | actions/bulk-upload.ts:26-40 | The error returned is the first failing row's. |
| BulkUpload.Import | actions/bulk-upload.ts:9-68 | No file: `NoFile`. An empty sheet: `NoData`. A success holds one record per row. |
| BulkUpload.ImportRows | actions/bulk-upload.ts:26-68 | The import succeeds exactly when every row is accepted, with record i built from row i. |
| BulkUpload.ImportFirstError | actions/bulk-upload.ts:26-40 | The import fails with the first bad row's message. |
| BulkUpload.TitleFallback | actions/bulk-upload.ts:27-30 | The title is `제목`, else `매물명`, else empty. |
| BulkUpload.RecordDefaults | actions/bulk-upload.ts:42-67 | Missing cells default to `SALE`, `APARTMENT`, 1 room, 1 bathroom and 0 parking. A sale price of 0 is stored as null. |
| BulkUpload.NaNAreaAccepted | actions/bulk-upload.ts:37-40 | A non-numeric area passes the `<= 0` check and is stored as NaN. |
| BulkUpload.Uploaded | actions/bulk-upload.ts:78-82 | The outcome reports success with the inserted count. |
| Sorting.SortBy | app/admin/properties/page.tsx:28 | The result is a permutation of the input, sorted by the key. |
| Sorting.SortOfSorted | app/admin/properties/page.tsx:28 | Sorting an already sorted list leaves it unchanged. |
| Sorting.KeysBelow | app/admin/properties/page.tsx:26 | The result holds exactly the keys below the bound, in ascending order. |
| PropertyListing.Selected | app/admin/properties/page.tsx:14-24 | A row is selected exactly when it matches the `where` clause. |
| PropertyListing.Listed | app/admin/properties/page.tsx:26-29 | The list is sorted newest first. |
| PropertyListing.ListedMembers | app/admin/properties/page.tsx:14-29 | A row is listed exactly when it matches: with `q`, title or address contains it; with `type`, the type equals it. |
| PropertyListing.ListedNewestFirst | app/admin/properties/page.tsx:26-29 | Creation times never increase along the list. |
| PropertyListing.NoFilterListsAll | app/admin/properties/page.tsx:14-24 | Without `q` and `type`, every row is listed. |
| PropertyListing.TypeNarrows | app/admin/properties/page.tsx:22 | Adding a type filter never lists more rows. |
| PropertyListing.CountMatches | app/admin/properties/page.tsx:37 | The count shown is the number of matching rows. |
| PropertyCard.GroupedDigits | components/PropertyCard.tsx:8 | Comma grouping only inserts separators: removing the commas gives the plain decimal text. |
| PropertyCard.AmountOrZero | components/PropertyCard.tsx:12 | A null amount shows `0`; any other amount shows its `toLocaleString()` text. |
| PropertyCard.PriceCases | components/PropertyCard.tsx:6-15 | A sale shows its price and a jeonse its deposit, each only when truthy. A monthly rental always shows `deposit/rent만원`, each amount as `AmountOrZero` gives it, even when both are null. Exactly the other cases show `가격 미정`. |
| PropertyCard.TypeLabelsKnown | components/PropertyCard.tsx:18-32 | The ten type codes have labels different from the code, and any other code is shown as itself. |
| PropertyCard.TypeLabelsDistinct | components/PropertyCard.tsx:19-30 | No two types share a label. |
| PropertyCard.StatusLabelsKnown | components/PropertyCard.tsx:35-42 | The three status codes have labels, and any other status is shown as itself. |
| PropertyCard.StatusBadge | components/PropertyCard.tsx:52-55 | `AVAILABLE` gets the success badge and `RESERVED` the warning badge; every other status gets the danger badge. |
| QueryParams.Get | components/PropertySearchBar.tsx:9 | The result is absent exactly when no pair has the name. |
| QueryParams.Deleted | components/PropertySearchBar.tsx:23 | The pairs kept are exactly those of other names. |
| QueryParams.GetAfterSet | components/PropertySearchBar.tsx:21 | After `set`, the name reads as the new value and every other name reads as before. |
| QueryParams.GetAfterDelete | components/PropertySearchBar.tsx:23 | After `delete`, the name is absent and every other name reads as before. |
| QueryParams.SetKeepsOthers | components/SearchFilter.tsx:16 | `set` leaves the pairs of all other names, and their order, unchanged. |
| QueryParams.DeleteTwice | components/PropertySearchBar.tsx:35-36 | Deleting is idempotent, and deletions of two names commute. |
| QueryParams.SearchParams.SetParam | components/PropertySearchBar.tsx:21 | The object's pairs become `Set(...)`. |
| QueryParams.SearchParams.DeleteParam | components/PropertySearchBar.tsx:23 | The object's pairs become `Deleted(...)`. |
| Text.Trim | components/PropertySearchBar.tsx:20-21 | `trim()` gives the text between the leading and trailing whitespace: an infix with only whitespace before and after it, and with no whitespace at either end. It is empty exactly when the text is all whitespace. |
| PropertySearchBar.SearchQueryReads | components/PropertySearchBar.tsx:15-30 | A search puts the trimmed term in `q`, or removes `q` when the term is blank. It removes `page` and leaves every other parameter as it was. |
| PropertySearchBar.SearchKeepsOthers | components/PropertySearchBar.tsx:18-27 | Apart from `q` and `page`, a search and a clear leave the same query. |
| PropertySearchBar.ClearQueryReads | components/PropertySearchBar.tsx:32-38 | A clear removes `q` and `page` and leaves every other parameter as it was. |
| PropertySearchBar.SearchBar.constructor | components/PropertySearchBar.tsx:9 | The input starts with the current `q`, or empty. |
| PropertySearchBar.SearchBar.Sync | components/PropertySearchBar.tsx:11-13 | The input follows the `q` of a new URL. |
| PropertySearchBar.SearchBar.Type | components/PropertySearchBar.tsx:51 | Typing makes the input's term exactly the typed value. |
| PropertySearchBar.SearchBar.HandleSearch | components/PropertySearchBar.tsx:15-30 | A submit pushes the list page with `SearchQuery` of the current query and the typed term. |
| PropertySearchBar.SearchBar.HandleClear | components/PropertySearchBar.tsx:32-38 | A clear empties the input and pushes the list page with `ClearQuery`. |
| SearchFilter.SetOrDeleteReads | components/SearchFilter.tsx:14-19 | The edited parameter reads as the value, or is absent when the value is empty. Every other parameter, `page` included, reads as before and keeps its place. |
| SearchFilter.SelectableTypesKnown | components/SearchFilter.tsx:60-66 | Every selectable type is a known type code, but `HOUSE` is not offered. |
| SearchFilter.Filter.constructor | components/SearchFilter.tsx:9 | The input starts with the current `q`, or empty. |
| SearchFilter.Filter.Type | components/SearchFilter.tsx:43 | Typing makes the input's term exactly the typed value. |
| SearchFilter.Filter.TermEffect | components/SearchFilter.tsx:12-24 | The debounced effect replaces the URL with `q` set to the term, or removed when the term is empty. |
| SearchFilter.Filter.SelectType | components/SearchFilter.tsx:53-58 | Choosing a type replaces the URL with `type` set, or removed for "all". |
| SearchFilter.Filter.Reset | components/SearchFilter.tsx:75-78 | A reset empties the input and replaces the URL with the bare list page. |
| Middleware.Guard | middleware.ts:4-13 | A request is redirected, always to `/login`, exactly when its path starts with `/admin` and there is no session. |
| Middleware.RouteRedirects | middleware.ts:4-17 | A request is redirected exactly when the matcher covers it and there is no session, and never when there is one. |
| Middleware.PrefixWiderThanMatcher | middleware.ts:6-16 | `/administrator` passes the guard's prefix test but is not matched, so it is never redirected. |

## Left out

- `Number()` is modelled for trimmed decimal text: an optional sign, digits and an optional fraction. Exponents, hexadecimal, `Infinity` and other JavaScript forms are not modelled; they give NaN in the model.
- Dates (`new Date(...)`) are kept as their text; date parsing is not modelled.
- `toLocaleString()` is modelled for integers with comma groups of three. Other locales and fractional amounts are not modelled.
- ORM details are not modelled: null columns beyond `Option`, and the text of ORM errors (`RecordNotFound` and `DeleteFailed` stand in for them).
- prisma/schema.prisma is not part of this model. The model assumes that the database cascades a property's delete to its extension, agent and image rows. Columns the database fills in itself, such as `updatedAt` (shown at app/admin/properties/[id]/page.tsx:333), are not modelled; `PropertyStore.UpdateIdempotent` is about the modelled columns only.
- Generic server failures (the 500 responses and the logged catch blocks) are not modelled; only the errors the code raises itself are.
- PropertyStore.Store.DeleteProperty: returns success for a present id. The source calls `redirect` inside its `try` (actions/property.ts:143), and the framework's redirect signal is then rethrown as the delete failure. The framework's redirect, `revalidatePath` and the page refresh are not modelled.
- PropertyListing.Listed: rows created at the same instant are listed in ascending id order. The database leaves their order unspecified.
- PropertiesRoute.FoundImages: images with equal `order` are read back in ascending id order. The database leaves their order unspecified, and ties are reachable (image orders "1" and "" both give order 1), so for tied rows the pairing with the moved URLs in `PatchUrls` may differ from the model's.
- `contains` is modelled as a case-sensitive substring test.
- Paths are plain strings: `path.join` normalisation and the `mkdir` of folders are not modelled.
- File write failures in `saveUploadedFile` and rename failures in `moveUploadedFiles` are not modelled.
- PropertiesRoute.Post: `moveFails` models only a failure of the post-commit step before it changes anything. A failure part-way through the moves or the row updates is not modelled.
- The 300 ms debounce timer of the search filter is not modelled; `Filter.TermEffect` is the effect when it fires.
- ImageList: works on values. The source's in-place updates on objects shared with the previous list (aliasing) are not modelled: the `order` renumbering and the promotion `updatedImages[0].isMain = true` in `handleRemove` (components/ui/ImageUploader.tsx:115-121).
- ImageList.MoveUp and ImageList.MoveDown: require an index within the list. The form only calls them with the index of a rendered entry.
- Spreadsheet parsing (XLSX) is not modelled: a sheet is given as rows of typed cells. A numeric cell carries its JavaScript text with it.
- BulkUpload.Uploaded: the inserted count is a parameter, because `skipDuplicates` depends on database uniqueness constraints that are not modelled.
- Query strings are lists of name/value pairs. Percent-encoding and `toString()` of `URLSearchParams` are not modelled.
- Label lookups do not model JavaScript prototype keys such as `constructor` in the label objects.
- Sessions, authentication and password hashing are inputs: a session is given or absent.
- The clock and the random suffix of upload names are parameters, and so is the creation time of a row.

=== FILE: bulk_upload.dfy ===
/** `uploadExcel` (actions/bulk-upload.ts): turns the rows of the first sheet
    of a workbook into property records. Each row is looked up by Korean
    column headers, some with a fallback header; title, address and a
    positive area are required, and the first row that lacks one aborts the
    whole import with an error naming its spreadsheet line. */
module BulkUpload {
  import opened Wrappers
  import opened Text
  import opened Numbers

  /** A cell value as the spreadsheet reader yields it. A number carries the
      text JavaScript's `String()` gives for it. */
  datatype Cell = Str(s: string) | Num(value: real, text: string) | Bool(b: bool)

  /** A row maps each header to its cell; an empty cell has no entry. */
  type Row = map<string, Cell>

  /** A cell is falsy when it is absent, the empty text, the number 0 or
      `false`. */
  predicate Truthy(c: Option<Cell>) {
    match c
    case None => false
    case Some(Str(s)) => s != ""
    case Some(Num(v, _)) => v != 0.0
    case Some(Bool(b)) => b
  }

  /** `String(cell)`. */
  function TextOf(c: Cell): string {
    match c
    case Str(s) => s
    case Num(_, text) => text
    case Bool(b) => if b then "true" else "false"
  }

  /** `Number(cell)`. */
  function NumberOf(c: Cell): JsNumber {
    match c
    case Str(s) => ParseNumber(s)
    case Num(v, _) => Finite(v)
    case Bool(b) => Finite(if b then 1.0 else 0.0)
  }

  function Lookup(row: Row, header: string): Option<Cell> {
    if header in row then Some(row[header]) else None
  }

  /** `row[h1] || row[h2] || ...` without the final default: the first
      truthy cell under the headers, in header order. */
  function FirstTruthy(row: Row, headers: seq<string>): (r: Option<Cell>)
    ensures r.Some? <==> exists i :: 0 <= i < |headers| && Truthy(Lookup(row, headers[i]))
    ensures r.Some? ==> Truthy(r)
    ensures r.Some? ==> exists i :: 0 <= i < |headers| && Lookup(row, headers[i]) == r &&
                          forall j :: 0 <= j < i ==> !Truthy(Lookup(row, headers[j]))
  {
    if headers == [] then None
    else if Truthy(Lookup(row, headers[0])) then Lookup(row, headers[0])
    else
      var rest := FirstTruthy(row, headers[1..]);
      assert forall i :: 1 <= i < |headers| ==> headers[1..][i - 1] == headers[i];
      if rest.Some? then
        ghost var i :| 0 <= i < |headers[1..]| && Lookup(row, headers[1..][i]) == rest &&
                       forall j :: 0 <= j < i ==> !Truthy(Lookup(row, headers[1..][j]));
        assert Lookup(row, headers[i + 1]) == rest;
        rest
      else rest
  }

  /** `String(row[h1] || ... || default)`. */
  function TextOr(row: Row, headers: seq<string>, default: string): string {
    match FirstTruthy(row, headers)
    case Some(c) => TextOf(c)
    case None => default
  }

  /** `Number(row[h1] || ... || default)`. */
  function NumberOr(row: Row, headers: seq<string>, default: real): JsNumber {
    match FirstTruthy(row, headers)
    case Some(c) => NumberOf(c)
    case None => Finite(default)
  }

  /** `row[h] ? Number(row[h]) : null`. */
  function OptionalNumber(row: Row, header: string): (r: Option<JsNumber>)
    ensures r.None? <==> !Truthy(Lookup(row, header))
    ensures r.Some? ==> header in row && r.value == NumberOf(row[header])
  {
    if Truthy(Lookup(row, header)) then Some(NumberOf(row[header])) else None
  }

  /** One record of the import. Cells copied without conversion keep their
      spreadsheet value. */
  datatype Record = Record(
    title: string, tradeType: string,
    salePrice: Option<JsNumber>, deposit: Option<JsNumber>, monthlyRent: Option<JsNumber>,
    address: string, addressDetail: string,
    exclusiveArea: JsNumber, supplyArea: Option<JsNumber>,
    propertyType: string,
    floor: Option<JsNumber>, totalFloors: Option<JsNumber>,
    rooms: JsNumber, bathrooms: JsNumber,
    direction: Option<Cell>, buildYear: Option<JsNumber>,
    hasElevator: bool, parkingSpaces: JsNumber,
    heatingType: Option<Cell>, maintenanceFee: Option<JsNumber>,
    summary: Option<Cell>, description: Option<Cell>,
    userId: string, status: string)

  const TitleHeaders: seq<string> := ["제목", "매물명"]
  const AreaHeaders: seq<string> := ["전용면적", "면적"]
  const TypeHeaders: seq<string> := ["건물유형", "유형"]
  const DescriptionHeaders: seq<string> := ["설명", "상세설명"]

  const ImportUser: string := "temp-user"
  const Available: string := "AVAILABLE"

  const NoFile: string := "파일이 선택되지 않았습니다."
  const NoData: string := "엑셀 파일에 데이터가 없습니다."

  /** The error for the row at 0-based position `index`: the header line is
      line 1, so that row sits on line `index + 2`. */
  function RowError(index: nat, what: string): string {
    NatToString(index + 2) + "행: " + what
  }

  const TitleRequired: string := "제목은 필수입니다."
  const AddressRequired: string := "주소는 필수입니다."
  const AreaRequired: string := "전용면적은 필수입니다."

  function TitleOf(row: Row): string { TextOr(row, TitleHeaders, "") }
  function AddressOf(row: Row): string { TextOr(row, ["주소"], "") }
  function AreaOf(row: Row): JsNumber { NumberOr(row, AreaHeaders, 0.0) }

  /** `exclusiveArea <= 0`: false for NaN, so a non-numeric area passes. */
  predicate AreaRejected(area: JsNumber) {
    area.Finite? && area.value <= 0.0
  }

  /** `elevator === 'Y' || elevator === true || elevator === '예'`. */
  predicate ElevatorYes(c: Option<Cell>) {
    c == Some(Str("Y")) || c == Some(Bool(true)) || c == Some(Str("예"))
  }

  /** The record built from a row that passed the three checks. */
  function RecordOf(row: Row): (r: Record)
    ensures r.title == TitleOf(row) && r.address == AddressOf(row) && r.exclusiveArea == AreaOf(row)
    ensures r.userId == ImportUser && r.status == Available
    ensures r.hasElevator <==> ElevatorYes(Lookup(row, "엘리베이터"))
  {
    Record(
      TitleOf(row), TextOr(row, ["거래유형"], "SALE"),
      OptionalNumber(row, "매매가"), OptionalNumber(row, "보증금"), OptionalNumber(row, "월세"),
      AddressOf(row), TextOr(row, ["상세주소"], ""),
      AreaOf(row), OptionalNumber(row, "공급면적"),
      TextOr(row, TypeHeaders, "APARTMENT"),
      OptionalNumber(row, "층수"), OptionalNumber(row, "전체층수"),
      NumberOr(row, ["방개수"], 1.0), NumberOr(row, ["욕실개수"], 1.0),
      FirstTruthy(row, ["향"]), OptionalNumber(row, "준공년도"),
      ElevatorYes(Lookup(row, "엘리베이터")), NumberOr(row, ["주차"], 0.0),
      FirstTruthy(row, ["난방"]), OptionalNumber(row, "관리비"),
      FirstTruthy(row, ["한줄소개"]), FirstTruthy(row, DescriptionHeaders),
      ImportUser, Available)
  }

  /** The body of the `data.map` callback for the row at `index`: the title
      is checked first, then the address, then the area. */
  function RowRecord(row: Row, index: nat): (r: Result<Record>)
    ensures r.Ok? <==> TitleOf(row) != "" && AddressOf(row) != "" && !AreaRejected(AreaOf(row))
    ensures TitleOf(row) == "" ==> r == Err(RowError(index, TitleRequired))
    ensures TitleOf(row) != "" && AddressOf(row) == "" ==> r == Err(RowError(index, AddressRequired))
    ensures TitleOf(row) != "" && AddressOf(row) != "" && AreaRejected(AreaOf(row)) ==>
      r == Err(RowError(index, AreaRequired))
    ensures r.Ok? ==> r.value == RecordOf(row)
  {
    if TitleOf(row) == "" then Err(RowError(index, TitleRequired))
    else if AddressOf(row) == "" then Err(RowError(index, AddressRequired))
    else if AreaRejected(AreaOf(row)) then Err(RowError(index, AreaRequired))
    else Ok(RecordOf(row))
  }

  /** `xs.map(f)` where `f` may throw and the elements start at position
      `offset`: the first element whose `f` fails aborts the mapping. */
  function MapOrAbort<A, B>(xs: seq<A>, offset: nat, f: (A, nat) -> Result<B>): (r: Result<seq<B>>)
    ensures r.Ok? ==> |r.value| == |xs|
  {
    if xs == [] then Ok([])
    else
      match f(xs[0], offset)
      case Err(e) => Err(e)
      case Ok(y) =>
        match MapOrAbort(xs[1..], offset + 1, f)
        case Err(e) => Err(e)
        case Ok(ys) => Ok([y] + ys)
  }

  /** The mapping succeeds exactly when every element does; its values are
      the elements' values in order. */
  lemma {:induction false} MapOrAbortOk<A, B>(xs: seq<A>, offset: nat, f: (A, nat) -> Result<B>)
    ensures MapOrAbort(xs, offset, f).Ok? <==> forall i :: 0 <= i < |xs| ==> f(xs[i], offset + i).Ok?
    ensures MapOrAbort(xs, offset, f).Ok? ==> forall i :: 0 <= i < |xs| ==>
      MapOrAbort(xs, offset, f).value[i] == f(xs[i], offset + i).value
  {
    if xs != [] {
      MapOrAbortOk(xs[1..], offset + 1, f);
      assert forall i :: 1 <= i < |xs| ==> xs[1..][i - 1] == xs[i];
      if f(xs[0], offset).Ok? && MapOrAbort(xs[1..], offset + 1, f).Ok? {
        forall i | 0 <= i < |xs|
          ensures MapOrAbort(xs, offset, f).value[i] == f(xs[i], offset + i).value
        {
          if i > 0 {
            assert MapOrAbort(xs, offset, f).value[i] == MapOrAbort(xs[1..], offset + 1, f).value[i - 1];
          }
        }
      } else if f(xs[0], offset).Ok? {
        var j :| 0 <= j < |xs[1..]| && f(xs[1..][j], offset + 1 + j).Err?;
        assert f(xs[j + 1], offset + j + 1).Err?;
      }
    }
  }

  /** A failed mapping reports the error of the first failing element. */
  lemma {:induction false} MapOrAbortFirstError<A, B>(xs: seq<A>, offset: nat, f: (A, nat) -> Result<B>, i: nat)
    requires i < |xs|
    requires f(xs[i], offset + i).Err?
    requires forall j :: 0 <= j < i ==> f(xs[j], offset + j).Ok?
    ensures MapOrAbort(xs, offset, f) == Err(f(xs[i], offset + i).error)
  {
    if i > 0 {
      assert f(xs[0], offset + 0).Ok?;
      forall j | 0 <= j < i - 1 ensures f(xs[1..][j], offset + 1 + j).Ok? {
        assert xs[1..][j] == xs[j + 1];
      }
      MapOrAbortFirstError(xs[1..], offset + 1, f, i - 1);
    }
  }

  /** The outcome of the import before the insert: the records, or the
      message of the error that aborts it. */
  function Import(sheet: Option<seq<Row>>): (r: Result<seq<Record>>)
    ensures sheet.None? ==> r == Err(NoFile)
    ensures sheet == Some([]) ==> r == Err(NoData)
    ensures r.Ok? ==> sheet.Some? && |r.value| == |sheet.value| > 0
  {
    match sheet
    case None => Err(NoFile)
    case Some(rows) => if rows == [] then Err(NoData) else MapOrAbort(rows, 0, RowRecord)
  }

  datatype Outcome = Outcome(success: bool, count: nat, message: string)

  /** The response once the insert reports `count` new rows; which rows the
      database skips as duplicates is its own decision. */
  function Uploaded(count: nat): (r: Outcome)
    ensures r.success && r.count == count
  {
    Outcome(true, count, NatToString(count) + "개의 매물이 성공적으로 등록되었습니다.")
  }

  /** An import of a non-empty sheet succeeds exactly when every row passes,
      with one record per row in row order; otherwise it fails with the
      error of the first failing row, so nothing is inserted. */
  lemma ImportRows(rows: seq<Row>)
    requires rows != []
    ensures Import(Some(rows)).Ok? <==> forall i :: 0 <= i < |rows| ==> RowRecord(rows[i], i).Ok?
    ensures Import(Some(rows)).Ok? ==> forall i :: 0 <= i < |rows| ==>
      Import(Some(rows)).value[i] == RecordOf(rows[i])
  {
    MapOrAbortOk(rows, 0, RowRecord);
  }

  lemma ImportFirstError(rows: seq<Row>, i: nat)
    requires i < |rows|
    requires RowRecord(rows[i], i).Err?
    requires forall j :: 0 <= j < i ==> RowRecord(rows[j], j).Ok?
    ensures Import(Some(rows)) == Err(RowRecord(rows[i], i).error)
  {
    MapOrAbortFirstError(rows, 0, RowRecord, i);
    assert Import(Some(rows)) == MapOrAbort(rows, 0, RowRecord);
  }

  /** The title falls back to `매물명` only when `제목` is falsy. */
  lemma TitleFallback(row: Row)
    ensures Truthy(Lookup(row, "제목")) ==> TitleOf(row) == TextOf(row["제목"])
    ensures !Truthy(Lookup(row, "제목")) && Truthy(Lookup(row, "매물명")) ==> TitleOf(row) == TextOf(row["매물명"])
    ensures !Truthy(Lookup(row, "제목")) && !Truthy(Lookup(row, "매물명")) ==> TitleOf(row) == ""
  {
    assert TitleHeaders[0] == "제목" && TitleHeaders[1] == "매물명";
    if !Truthy(Lookup(row, "제목")) && Truthy(Lookup(row, "매물명")) {
      assert FirstTruthy(row, TitleHeaders) == FirstTruthy(row, TitleHeaders[1..]);
    }
  }

  /** The defaults of a record: SALE, APARTMENT, one room and bathroom, no
      parking, and null prices for empty or zero price cells. */
  lemma RecordDefaults(row: Row)
    ensures !Truthy(Lookup(row, "거래유형")) ==> RecordOf(row).tradeType == "SALE"
    ensures !Truthy(Lookup(row, "건물유형")) && !Truthy(Lookup(row, "유형")) ==> RecordOf(row).propertyType == "APARTMENT"
    ensures !Truthy(Lookup(row, "방개수")) ==> RecordOf(row).rooms == Finite(1.0)
    ensures !Truthy(Lookup(row, "욕실개수")) ==> RecordOf(row).bathrooms == Finite(1.0)
    ensures !Truthy(Lookup(row, "주차")) ==> RecordOf(row).parkingSpaces == Finite(0.0)
    ensures RecordOf(row).salePrice.None? <==> !Truthy(Lookup(row, "매매가"))
    ensures Lookup(row, "매매가") == Some(Num(0.0, "0")) ==> RecordOf(row).salePrice.None?
  {
    assert TypeHeaders[0] == "건물유형" && TypeHeaders[1] == "유형";
  }

  /** A non-numeric area text makes `Number` NaN, which `<= 0` does not
      reject: the row is imported with a NaN area. */
  lemma NaNAreaAccepted(row: Row, s: string)
    requires TitleOf(row) != "" && AddressOf(row) != ""
    requires Lookup(row, "전용면적") == Some(Str(s)) && s != "" && ParseNumber(s) == NaN
    ensures RowRecord(row, 0).Ok? && RowRecord(row, 0).value.exclusiveArea == NaN
  {
    assert AreaHeaders[0] == "전용면적";
  }
}

=== FILE: file_upload.dfy ===
/** Image-file helpers (lib/fileUpload.ts): validation of an uploaded file,
    file-name sanitising, unique-name assembly, and the stored-file lifecycle
    (save to a folder, move from `temp` to the property's folder, delete).
    The file system is abstracted to the set of public URLs that currently
    name a stored file. */
module FileUpload {
  import opened Text

  /** An uploaded file as the route sees it: its name, MIME type and size in bytes. */
  datatype FileInfo = FileInfo(name: string, mimeType: string, size: nat)

  datatype Validation = Accepted | Rejected(error: string)

  const AllowedTypes: seq<string> := ["image/jpeg", "image/png", "image/webp", "image/gif"]
  const MaxFileSize: nat := 5 * 1024 * 1024
  const FormatError: string := "지원하지 않는 파일 형식입니다. (JPEG, PNG, WebP, GIF만 가능)"
  const SizeError: string := "파일 크기는 5MB를 초과할 수 없습니다."
  const UploadRoot: string := "/uploads/properties/"
  const TempFolder: string := "temp"
  const TempMarker: string := "/temp/"

  /** `validateImageFile`: the type is checked first, then the size. */
  function ValidateImageFile(file: FileInfo): (v: Validation)
    ensures file.mimeType !in AllowedTypes ==> v == Rejected(FormatError)
    ensures file.mimeType in AllowedTypes ==> (v.Accepted? <==> file.size <= MaxFileSize)
    ensures v.Rejected? ==> v.error == FormatError || v.error == SizeError
  {
    if file.mimeType !in AllowedTypes then Rejected(FormatError)
    else if file.size > MaxFileSize then Rejected(SizeError)
    else Accepted
  }

  /** A file of exactly 5 MiB passes, one byte more does not. */
  lemma SizeLimitIsInclusive(mimeType: string)
    requires mimeType in AllowedTypes
    ensures ValidateImageFile(FileInfo("", mimeType, 5242880)).Accepted?
    ensures ValidateImageFile(FileInfo("", mimeType, 5242881)) == Rejected(SizeError)
  {
  }

  // ---------------------------------------------------------------------------
  // sanitizeFileName: drop characters outside [\w\s.-], turn every run of
  // white space into one '-', then lower-case.

  predicate KeptChar(c: char) { IsWordChar(c) || IsJsSpace(c) || c == '.' || c == '-' }

  /** The characters a sanitised name can contain. */
  predicate SafeChar(c: char) { IsAsciiLower(c) || IsDigit(c) || c == '_' || c == '.' || c == '-' }

  predicate AllSafe(s: string) { forall i :: 0 <= i < |s| ==> SafeChar(s[i]) }

  /** `replace(/[^\w\s.-]/g, '')` */
  function StripDisallowed(s: string): (r: string)
    ensures forall i :: 0 <= i < |r| ==> KeptChar(r[i])
    ensures (forall i :: 0 <= i < |s| ==> KeptChar(s[i])) ==> r == s
    ensures forall c :: multiset(r)[c] == (if KeptChar(c) then multiset(s)[c] else 0)
  {
    if s == [] then []
    else
      assert s == [s[0]] + s[1..];
      if KeptChar(s[0]) then [s[0]] + StripDisallowed(s[1..])
      else StripDisallowed(s[1..])
  }

  /** Stripping works character by character, so it keeps the allowed
      characters in their order: stripping a concatenation strips each part. */
  lemma {:induction false} StripDisallowedAppend(a: string, b: string)
    ensures StripDisallowed(a + b) == StripDisallowed(a) + StripDisallowed(b)
  {
    if a == [] {
      assert a + b == b;
    } else {
      var ab := a + b;
      assert ab[0] == a[0] && ab[1..] == a[1..] + b;
      StripDisallowedAppend(a[1..], b);
      if KeptChar(a[0]) {
        calc {
          StripDisallowed(ab);
          [a[0]] + StripDisallowed(a[1..] + b);
          [a[0]] + (StripDisallowed(a[1..]) + StripDisallowed(b));
          ([a[0]] + StripDisallowed(a[1..])) + StripDisallowed(b);
        }
      } else {
        calc {
          StripDisallowed(ab);
          StripDisallowed(a[1..] + b);
          StripDisallowed(a[1..]) + StripDisallowed(b);
        }
      }
    }
  }

  function DropSpaces(s: string): (r: string)
    ensures |r| <= |s| && r == s[|s| - |r|..]
    ensures r != [] ==> !IsJsSpace(r[0])
  {
    if s != [] && IsJsSpace(s[0]) then DropSpaces(s[1..]) else s
  }

  /** `replace(/\s+/g, '-')` */
  function CollapseSpaces(s: string): (r: string)
    ensures forall i :: 0 <= i < |r| ==> !IsJsSpace(r[i])
    ensures (forall i :: 0 <= i < |s| ==> KeptChar(s[i])) ==> forall i :: 0 <= i < |r| ==> KeptChar(r[i])
    ensures (forall i :: 0 <= i < |s| ==> !IsJsSpace(s[i])) ==> r == s
    decreases |s|
  {
    if s == [] then []
    else if IsJsSpace(s[0]) then
      var rest := DropSpaces(s[1..]);
      assert forall i :: 0 <= i < |rest| ==> rest[i] == s[|s| - |rest| + i];
      "-" + CollapseSpaces(rest)
    else
      assert forall i :: 0 <= i < |s| - 1 ==> s[1..][i] == s[i + 1];
      [s[0]] + CollapseSpaces(s[1..])
  }

  /** The same replacement read one character at a time: a white-space
      character becomes '-' unless the character before it is white space
      too, in which case it is dropped; every other character is kept. */
  function Squeeze(s: string, afterSpace: bool): string {
    if s == [] then []
    else if IsJsSpace(s[0]) then (if afterSpace then "" else "-") + Squeeze(s[1..], true)
    else [s[0]] + Squeeze(s[1..], false)
  }

  /** Squeezing introduces no character other than '-'. */
  lemma {:induction false} SqueezeChars(s: string, afterSpace: bool)
    ensures forall i :: 0 <= i < |Squeeze(s, afterSpace)| ==>
      Squeeze(s, afterSpace)[i] == '-' || Squeeze(s, afterSpace)[i] in s
  {
    if s != [] {
      SqueezeChars(s[1..], IsJsSpace(s[0]));
      assert forall c :: c in s[1..] ==> c in s;
    }
  }

  /** Leading white space is dropped after white space. */
  lemma {:induction false} SqueezeDropsSpaces(s: string)
    ensures Squeeze(s, true) == Squeeze(DropSpaces(s), true)
  {
    if s != [] && IsJsSpace(s[0]) {
      SqueezeDropsSpaces(s[1..]);
    }
  }

  /** Each run of white space becomes exactly one '-', and every other
      character is kept, in order. */
  lemma {:induction false} CollapseSpacesSqueezes(s: string)
    ensures CollapseSpaces(s) == Squeeze(s, false)
    ensures forall i :: 0 <= i < |CollapseSpaces(s)| ==> CollapseSpaces(s)[i] == '-' || CollapseSpaces(s)[i] in s
    decreases |s|
  {
    SqueezeChars(s, false);
    if s != [] {
      if IsJsSpace(s[0]) {
        var rest := DropSpaces(s[1..]);
        CollapseSpacesSqueezes(rest);
        SqueezeDropsSpaces(s[1..]);
        if rest != [] {
          assert Squeeze(rest, true) == Squeeze(rest, false);
        }
      } else {
        CollapseSpacesSqueezes(s[1..]);
      }
    }
  }

  function SanitizeFileName(name: string): (r: string)
    ensures AllSafe(r)
  {
    Lower(CollapseSpaces(StripDisallowed(name)))
  }

  /** A name made only of safe characters is its own sanitised form. */
  lemma {:induction false} SanitizeFixesSafeNames(s: string)
    requires AllSafe(s)
    ensures SanitizeFileName(s) == s
  {
    assert StripDisallowed(s) == s;
    assert CollapseSpaces(s) == s;
    assert Lower(s) == s;
  }

  /** Sanitising is idempotent and its output holds no white space and no
      upper-case letter. */
  lemma SanitizeIdempotent(name: string)
    ensures SanitizeFileName(SanitizeFileName(name)) == SanitizeFileName(name)
    ensures forall i :: 0 <= i < |SanitizeFileName(name)| ==>
      !IsJsSpace(SanitizeFileName(name)[i]) && !IsAsciiUpper(SanitizeFileName(name)[i])
  {
    SanitizeFixesSafeNames(SanitizeFileName(name));
  }

  // ---------------------------------------------------------------------------
  // generateUniqueFileName

  /** Index of the last `c` in `s`, or -1. */
  function LastIndexOf(s: string, c: char): (r: int)
    ensures -1 <= r < |s|
    ensures r >= 0 ==> s[r] == c
    ensures forall i :: r < i < |s| ==> s[i] != c
  {
    if s == [] then -1
    else if s[|s| - 1] == c then |s| - 1
    else LastIndexOf(s[..|s| - 1], c)
  }

  /** `path.extname` of a name without '/': from the last dot on, except for
      names without a dot, names whose only dot-run starts them, and "..". */
  function ExtName(s: string): (r: string)
    ensures |r| <= |s| && r == s[|s| - |r|..]
    ensures r != "" ==> r[0] == '.' && |r| < |s| && forall i :: 0 < i < |r| ==> r[i] != '.'
    ensures (forall i :: 0 < i < |s| ==> s[i] != '.') ==> r == ""
    ensures r == "" <==> s == ".." || forall i :: 0 < i < |s| ==> s[i] != '.'
  {
    var d := LastIndexOf(s, '.');
    if d <= 0 || s == ".." then "" else s[d..]
  }

  /** The extension is a suffix, so the base name and the extension put back
      together give the name. */
  lemma ExtNameIsSuffix(s: string, prefix: string)
    ensures ExtName(s) == s[|s| - |ExtName(s)|..]
    ensures prefix + BaseNameWithout(s, ExtName(s)) + ExtName(s) == prefix + s
  {
    var ext := ExtName(s);
    assert BaseNameWithout(s, ext) + ext == s;
  }

  /** `path.basename(s, ext)` for a name without '/' whose extension is `ext`. */
  function BaseNameWithout(s: string, ext: string): string
    requires |ext| <= |s|
  {
    s[..|s| - |ext|]
  }

  /** `<timestamp>-<random>-<name><ext>`; `Date.now()` and the random
      base-36 fragment are parameters. */
  function UniqueFileName(originalName: string, timestamp: nat, random: string): string {
    var sanitized := SanitizeFileName(originalName);
    var ext := ExtName(sanitized);
    NatToString(timestamp) + "-" + random + "-" + BaseNameWithout(sanitized, ext) + ext
  }

  /** Splitting off the extension and putting it back gives the sanitised
      name, so the unique name is the timestamp, the random part and the
      sanitised original joined by '-'. */
  lemma UniqueFileNameShape(originalName: string, timestamp: nat, random: string)
    ensures UniqueFileName(originalName, timestamp, random)
         == NatToString(timestamp) + "-" + random + "-" + SanitizeFileName(originalName)
  {
    ExtNameIsSuffix(SanitizeFileName(originalName), NatToString(timestamp) + "-" + random + "-");
  }

  /** The URL `saveUploadedFile` returns for a file stored in `folder`. */
  function StoredUrl(folder: string, fileName: string): string {
    UploadRoot + folder + "/" + fileName
  }

  // ---------------------------------------------------------------------------
  // moveUploadedFiles

  function TrimTrailingSlashes(s: string): (r: string)
    ensures |r| <= |s| && r == s[..|r|]
    ensures r != [] ==> r[|r| - 1] != '/'
    ensures forall i :: |r| <= i < |s| ==> s[i] == '/'
  {
    if s != [] && s[|s| - 1] == '/' then TrimTrailingSlashes(s[..|s| - 1]) else s
  }

  /** `path.basename(url)`: the last path segment. */
  function BaseName(url: string): (r: string)
    ensures forall i :: 0 <= i < |r| ==> r[i] != '/'
    ensures var t := TrimTrailingSlashes(url);
      |r| <= |t| && r == t[|t| - |r|..] && (r == t || t[|t| - |r| - 1] == '/')
  {
    var t := TrimTrailingSlashes(url);
    t[LastIndexOf(t, '/') + 1..]
  }

  /** Where a temp file of property `propertyId` is moved to. */
  function TargetUrl(propertyId: nat, fileName: string): string {
    UploadRoot + NatToString(propertyId) + "/" + fileName
  }

  predicate IsTempUrl(url: string) { Contains(url, TempMarker) }

  /** One iteration of the loop: a non-temp URL is kept; a temp URL whose file
      exists is renamed into the property folder and its new URL reported; a
      temp URL whose file is missing is kept as it was. */
  function MoveStep(files: set<string>, url: string, propertyId: nat): (r: (set<string>, string))
    ensures !IsTempUrl(url) ==> r == (files, url)
    ensures IsTempUrl(url) && url !in files ==> r == (files, url)
    ensures IsTempUrl(url) && url in files ==>
      var target := TargetUrl(propertyId, BaseName(url));
      r == (files - {url} + {target}, target)
  {
    if !IsTempUrl(url) then (files, url)
    else if url in files then
      var target := TargetUrl(propertyId, BaseName(url));
      (files - {url} + {target}, target)
    else (files, url)
  }

  /** The state and the reported URLs after running the loop over `urls`. */
  function MoveAll(files: set<string>, urls: seq<string>, propertyId: nat): (r: (set<string>, seq<string>))
    ensures |r.1| == |urls|
    ensures forall i :: 0 <= i < |urls| && !IsTempUrl(urls[i]) ==> r.1[i] == urls[i]
    ensures forall i :: 0 <= i < |urls| ==>
      r.1[i] == urls[i] || r.1[i] == TargetUrl(propertyId, BaseName(urls[i]))
  {
    if urls == [] then (files, [])
    else
      var before := MoveAll(files, urls[..|urls| - 1], propertyId);
      var step := MoveStep(before.0, urls[|urls| - 1], propertyId);
      (step.0, before.1 + [step.1])
  }

  lemma {:induction false} StartsWithAt(s: string, t: string, k: nat)
    requires k <= |s| && StartsWith(s[k..], t)
    ensures k + |t| <= |s| && s[k..k + |t|] == t
  {
    assert s[k..][..|t|] == s[k..k + |t|];
  }

  lemma {:induction false} ContainsAt(s: string, t: string) returns (k: nat)
    requires Contains(s, t)
    ensures k + |t| <= |s| && s[k..k + |t|] == t
    decreases |s|
  {
    if StartsWith(s, t) {
      k := 0;
      StartsWithAt(s, t, 0);
    } else {
      var k' := ContainsAt(s[1..], t);
      k := k' + 1;
      assert s[1..][k'..k' + |t|] == s[k..k + |t|];
    }
  }

  /** Target URLs never lie in `temp`: the digits of the property id cannot
      spell "temp", and the file name holds no '/'. */
  lemma TargetIsNotTemp(propertyId: nat, fileName: string)
    requires forall i :: 0 <= i < |fileName| ==> fileName[i] != '/'
    ensures !IsTempUrl(TargetUrl(propertyId, fileName))
  {
    var digits := NatToString(propertyId);
    var s := TargetUrl(propertyId, fileName);
    var n := |digits|;
    assert |UploadRoot| == 20;
    if IsTempUrl(s) {
      var k := ContainsAt(s, TempMarker);
      assert s[k] == '/' && s[k + 1] == 't' && s[k + 5] == '/' by {
        assert s[k..k + 6][0] == '/' && s[k..k + 6][1] == 't' && s[k..k + 6][5] == '/';
      }
      NoTempSegmentAt(propertyId, fileName, k);
    }
  }

  /** No position of a target URL starts a "/t..." segment that ends five
      characters later with '/'. */
  lemma NoTempSegmentAt(propertyId: nat, fileName: string, k: nat)
    requires forall i :: 0 <= i < |fileName| ==> fileName[i] != '/'
    requires k + 6 <= |TargetUrl(propertyId, fileName)|
    ensures var s := TargetUrl(propertyId, fileName);
      !(s[k] == '/' && s[k + 1] == 't' && s[k + 5] == '/')
  {
    var digits := NatToString(propertyId);
    var s := TargetUrl(propertyId, fileName);
    var n := |digits|;
    assert |UploadRoot| == 20;
    if k < 19 {
      assert s[..20] == UploadRoot;
      assert s[k] == UploadRoot[k] && s[k + 1] == UploadRoot[k + 1];
    } else if k == 19 {
      assert s[k + 1] == digits[0];
    } else if k < 20 + n {
      assert s[k] == digits[k - 20];
    } else if k == 20 + n {
      assert s[k + 5] == fileName[k + 5 - 21 - n];
    } else {
      assert s[k] == fileName[k - 21 - n];
    }
  }

  /** When the URLs are distinct, whether a temp URL is moved depends only on
      whether its file existed before the loop started. */
  lemma {:induction false} MoveAllDistinct(files: set<string>, urls: seq<string>, propertyId: nat, i: nat)
    requires forall a, b :: 0 <= a < b < |urls| ==> urls[a] != urls[b]
    requires i < |urls| && IsTempUrl(urls[i])
    ensures urls[i] in files ==> MoveAll(files, urls, propertyId).1[i] == TargetUrl(propertyId, BaseName(urls[i]))
    ensures urls[i] !in files ==> MoveAll(files, urls, propertyId).1[i] == urls[i]
  {
    var prefix := urls[..|urls| - 1];
    if i == |urls| - 1 {
      UntouchedBeforeStep(files, prefix, propertyId, urls[i]);
    } else {
      MoveAllDistinct(files, prefix, propertyId, i);
    }
  }

  /** A temp URL that none of the earlier URLs equals keeps its presence in
      the file set across those earlier steps. */
  lemma {:induction false} UntouchedBeforeStep(files: set<string>, urls: seq<string>, propertyId: nat, u: string)
    requires IsTempUrl(u) && u !in urls
    ensures u in MoveAll(files, urls, propertyId).0 <==> u in files
  {
    if urls != [] {
      var prefix := urls[..|urls| - 1];
      assert u !in prefix;
      UntouchedBeforeStep(files, prefix, propertyId, u);
      var last := urls[|urls| - 1];
      TargetIsNotTemp(propertyId, BaseName(last));
    }
  }

  function AsSet(urls: seq<string>): set<string> {
    set u | u in urls
  }

  lemma AsSetAppend(urls: seq<string>, url: string)
    ensures AsSet(urls + [url]) == AsSet(urls) + {url}
  {
    assert forall u :: u in urls + [url] <==> u in urls || u == url;
  }

  /** The stored files, each named by its public URL. */
  class FileStore {
    var files: set<string>

    constructor (initial: set<string>)
      ensures files == initial
    {
      files := initial;
    }

    /** `saveUploadedFile`: writes the file under a unique name in `folder`
        and returns its public URL. */
    method Save(file: FileInfo, folder: string, timestamp: nat, random: string) returns (url: string)
      modifies this
      ensures url == StoredUrl(folder, UniqueFileName(file.name, timestamp, random))
      ensures files == old(files) + {url}
    {
      url := StoredUrl(folder, UniqueFileName(file.name, timestamp, random));
      files := files + {url};
    }

    /** `moveUploadedFiles`: runs the move over every URL in order. */
    method MoveUploadedFiles(urls: seq<string>, propertyId: nat) returns (moved: seq<string>)
      modifies this
      ensures (files, moved) == MoveAll(old(files), urls, propertyId)
    {
      moved := [];
      var i := 0;
      while i < |urls|
        invariant 0 <= i <= |urls|
        invariant (files, moved) == MoveAll(old(files), urls[..i], propertyId)
      {
        var url := urls[i];
        assert urls[..i + 1][..i] == urls[..i];
        if !Contains(url, TempMarker) {
          moved := moved + [url];
        } else {
          var target := TargetUrl(propertyId, BaseName(url));
          if url in files {
            files := files - {url} + {target};
            moved := moved + [target];
          } else {
            moved := moved + [url];
          }
        }
        i := i + 1;
      }
      assert urls[..i] == urls;
    }

    /** `deleteUploadedFile`: removes the file if it exists; never fails. */
    method DeleteUploadedFile(url: string)
      modifies this
      ensures files == old(files) - {url}
    {
      if url in files {
        files := files - {url};
      }
    }

    /** `deleteUploadedFiles`: every listed file is gone afterwards. */
    method DeleteUploadedFiles(urls: seq<string>)
      modifies this
      ensures files == old(files) - AsSet(urls)
    {
      var i := 0;
      while i < |urls|
        invariant 0 <= i <= |urls|
        invariant files == old(files) - AsSet(urls[..i])
      {
        assert urls[..i + 1] == urls[..i] + [urls[i]];
        AsSetAppend(urls[..i], urls[i]);
        DeleteUploadedFile(urls[i]);
        i := i + 1;
      }
      assert urls[..i] == urls;
    }
  }
}

=== FILE: forms.dfy ===
/** Request inputs shared by the server actions and routes: the session user
    and the submitted form, with the coercions the handlers apply to form
    fields (`x ? Number(x) : null`, `Number(x) || d`, `x === 'true'`). */
module Forms {
  import opened Wrappers
  import opened Numbers

  /** The single-valued fields of a submitted form; a missing key is what
      `formData.get` answers with `null`. */
  type FormData = map<string, string>

  /** The session user; an empty string stands for a missing (falsy) value. */
  datatype SessionUser = SessionUser(id: string, email: string, sub: string)

  const Unauthenticated: string := "인증되지 않은 사용자입니다."

  /** `session?.user?.id` is truthy. */
  predicate HasUserId(session: Option<SessionUser>) {
    session.Some? && session.value.id != ""
  }

  function Get(form: FormData, key: string): Option<string> {
    if key in form then Some(form[key]) else None
  }

  /** `formData.get(key)` is truthy: present and not the empty string. */
  predicate Present(form: FormData, key: string) {
    key in form && form[key] != ""
  }

  /** `formData.get(key) ? Number(formData.get(key)) : null` */
  function OptionalNumber(form: FormData, key: string): (r: Option<JsNumber>)
    ensures r.None? <==> !Present(form, key)
    ensures r.Some? ==> r.value == ParseNumber(form[key])
  {
    if Present(form, key) then Some(ParseNumber(form[key])) else None
  }

  /** `Number(formData.get(key)) || default`: the parsed value unless it is
      0 or NaN (a missing field counts as 0). */
  function NumberOr(form: FormData, key: string, default: real): (r: real)
    ensures Truthy(NumberOfField(Get(form, key))) ==> r == NumberOfField(Get(form, key)).value
    ensures !Truthy(NumberOfField(Get(form, key))) ==> r == default
    ensures r != 0.0 || default == 0.0
  {
    var n := NumberOfField(Get(form, key));
    if Truthy(n) then n.value else default
  }

  /** `formData.get(key) === 'true'` */
  predicate Flag(form: FormData, key: string) {
    Get(form, key) == Some("true")
  }

  /** `formData.get(key) ? new Date(formData.get(key)) : null`; the date is
      kept as its text. */
  function OptionalDate(form: FormData, key: string): (r: Option<string>)
    ensures r.Some? <==> Present(form, key)
    ensures r.Some? ==> r.value == form[key]
  {
    if Present(form, key) then Some(form[key]) else None
  }
}

=== FILE: image_list.dfy ===
/** The image list the property form holds in the browser
    (components/ui/ImageUploader.tsx): an ordered sequence of image
    descriptors, each with its position in `order` and at most one flagged as
    the main (representative) image. */
module ImageList {
  import opened Wrappers

  /** One entry of the list: `id` is present for an image that already has a
      database row and absent for a fresh upload. */
  datatype UploadedImage = UploadedImage(id: Option<int>, url: string, order: int, isMain: bool)

  /** What the upload endpoint answered: the stored URLs, or a failure
      (an error response or a network error). */
  datatype UploadReply = Uploaded(urls: seq<string>) | UploadFailed

  const DefaultMaxImages: nat := 10

  /** Every entry's `order` is its position. */
  predicate WellOrdered(s: seq<UploadedImage>) {
    forall i :: 0 <= i < |s| ==> s[i].order == i
  }

  predicate HasMain(s: seq<UploadedImage>) {
    exists i :: 0 <= i < |s| && s[i].isMain
  }

  predicate AtMostOneMain(s: seq<UploadedImage>) {
    forall i, j :: 0 <= i < |s| && 0 <= j < |s| && s[i].isMain && s[j].isMain ==> i == j
  }

  /** At most one main image, and exactly one when the list is non-empty. */
  predicate MainInvariant(s: seq<UploadedImage>) {
    AtMostOneMain(s) && (|s| > 0 ==> HasMain(s))
  }

  predicate Valid(s: seq<UploadedImage>) {
    WellOrdered(s) && MainInvariant(s)
  }

  /** The list `images.filter((_, i) => i !== index)`. */
  function Without(s: seq<UploadedImage>, index: int): (r: seq<UploadedImage>)
    ensures 0 <= index < |s| ==> |r| == |s| - 1
    ensures !(0 <= index < |s|) ==> r == s
    ensures forall k :: 0 <= k < |r| ==> r[k] == s[if 0 <= index <= k then k + 1 else k]
  {
    if 0 <= index < |s| then s[..index] + s[index + 1..] else s
  }

  /** Position `k` after exchanging positions `i` and `j`. */
  function Swapped(k: int, i: int, j: int): int {
    if k == i then j else if k == j then i else k
  }

  /** `handleFiles`: files that would push the list above `maxImages` are
      refused and the list stays as it is; otherwise the uploaded URLs are
      appended, numbered after the existing entries, and the first of them
      becomes main only when the list was empty. */
  function HandleFiles(images: seq<UploadedImage>, fileCount: nat, maxImages: nat, reply: UploadReply)
    : (r: seq<UploadedImage>)
    ensures |images| + fileCount > maxImages ==> r == images
    ensures reply.UploadFailed? ==> r == images
    ensures |images| + fileCount <= maxImages && reply.Uploaded? ==>
      && |r| == |images| + |reply.urls|
      && r[..|images|] == images
      && forall k :: 0 <= k < |reply.urls| ==>
           r[|images| + k] == UploadedImage(None, reply.urls[k], |images| + k, |images| == 0 && k == 0)
  {
    if |images| + fileCount > maxImages then images
    else match reply
      case UploadFailed => images
      case Uploaded(urls) =>
        images + seq(|urls|, k requires 0 <= k < |urls| =>
                       UploadedImage(None, urls[k], |images| + k, |images| == 0 && k == 0))
  }

  /** Appending keeps the list valid: orders continue the numbering, and a
      main image is added only when there was none because the list was empty. */
  lemma {:induction false} HandleFilesKeepsValid(images: seq<UploadedImage>, fileCount: nat, maxImages: nat, reply: UploadReply)
    requires Valid(images)
    ensures Valid(HandleFiles(images, fileCount, maxImages, reply))
  {
    var r := HandleFiles(images, fileCount, maxImages, reply);
    if |images| + fileCount <= maxImages && reply.Uploaded? {
      var n := |images|;
      forall i | 0 <= i < |r| ensures r[i].order == i {
        if i < n { assert r[i] == images[i]; }
      }
      forall i, j | 0 <= i < |r| && 0 <= j < |r| && r[i].isMain && r[j].isMain ensures i == j {
        if i < n { assert r[i] == images[i]; }
        if j < n { assert r[j] == images[j]; }
      }
      if |r| > 0 {
        if n > 0 {
          var m :| 0 <= m < n && images[m].isMain;
          assert r[m] == images[m];
        } else {
          assert r[0].isMain;
        }
      }
    }
  }

  /** `handleSetMain`: exactly the entry at `index` is main; urls, ids and
      orders are untouched. */
  function SetMain(images: seq<UploadedImage>, index: int): (r: seq<UploadedImage>)
    ensures |r| == |images|
    ensures forall i :: 0 <= i < |r| ==> (r[i].isMain <==> i == index)
    ensures forall i :: 0 <= i < |r| ==>
      r[i].id == images[i].id && r[i].url == images[i].url && r[i].order == images[i].order
  {
    seq(|images|, i requires 0 <= i < |images| => images[i].(isMain := i == index))
  }

  lemma SetMainKeepsValid(images: seq<UploadedImage>, index: int)
    requires Valid(images) && 0 <= index < |images|
    ensures Valid(SetMain(images, index))
  {
    assert SetMain(images, index)[index].isMain;
  }

  /** The `forEach` that assigns `img.order = i` to every entry. */
  method Renumber(a: array<UploadedImage>)
    modifies a
    ensures forall k :: 0 <= k < a.Length ==> a[k] == old(a[k]).(order := k)
  {
    var i := 0;
    while i < a.Length
      invariant 0 <= i <= a.Length
      invariant forall k :: 0 <= k < i ==> a[k] == old(a[k]).(order := k)
      invariant forall k :: i <= k < a.Length ==> a[k] == old(a[k])
    {
      a[i] := a[i].(order := i);
      i := i + 1;
    }
  }

  /** `handleRemove`: the entry at `index` is dropped, the others keep their
      relative order and are renumbered, and when no main image survives the
      new first entry becomes main. */
  method Remove(images: seq<UploadedImage>, index: int) returns (r: seq<UploadedImage>)
    ensures 0 <= index < |images| ==> |r| == |images| - 1
    ensures !(0 <= index < |images|) ==> |r| == |images|
    ensures WellOrdered(r)
    ensures forall k :: 0 <= k < |r| ==>
      var src := images[if 0 <= index <= k then k + 1 else k];
      r[k].id == src.id && r[k].url == src.url
    ensures forall k :: 0 <= k < |r| ==>
      r[k].isMain == (Without(images, index)[k].isMain || (k == 0 && !HasMain(Without(images, index))))
    ensures AtMostOneMain(images) ==> MainInvariant(r)
  {
    var kept := Without(images, index);
    var a := new UploadedImage[|kept|](k requires 0 <= k < |kept| => kept[k]);
    Renumber(a);
    assert forall k :: 0 <= k < a.Length ==> a[k] == kept[k].(order := k);
    if a.Length > 0 && !(exists k :: 0 <= k < a.Length && a[k].isMain) {
      assert !HasMain(kept) by {
        forall k | 0 <= k < |kept| ensures !kept[k].isMain {
          assert a[k].isMain == kept[k].isMain;
        }
      }
      a[0] := a[0].(isMain := true);
    } else if a.Length > 0 {
      var m :| 0 <= m < a.Length && a[m].isMain;
      assert kept[m].isMain;
    }
    r := a[..];
    RemovedEntries(images, index, r);
  }

  /** What `Remove` promises, from the entries it builds: the kept entries
      renumbered, the first of them promoted when none is main. */
  lemma RemovedEntries(images: seq<UploadedImage>, index: int, r: seq<UploadedImage>)
    requires var kept := Without(images, index);
      && |r| == |kept|
      && forall k :: 0 <= k < |r| ==>
           r[k] == kept[k].(order := k, isMain := kept[k].isMain || (k == 0 && !HasMain(kept)))
    ensures 0 <= index < |images| ==> |r| == |images| - 1
    ensures !(0 <= index < |images|) ==> |r| == |images|
    ensures WellOrdered(r)
    ensures forall k :: 0 <= k < |r| ==>
      var src := images[if 0 <= index <= k then k + 1 else k];
      r[k].id == src.id && r[k].url == src.url
    ensures AtMostOneMain(images) ==> MainInvariant(r)
  {
    if AtMostOneMain(images) {
      WithoutKeepsAtMostOneMain(images, index);
      PromoteKeepsMainInvariant(Without(images, index), r);
    }
  }

  lemma WithoutKeepsAtMostOneMain(s: seq<UploadedImage>, index: int)
    requires AtMostOneMain(s)
    ensures AtMostOneMain(Without(s, index))
  {
    var w := Without(s, index);
    forall i, j | 0 <= i < |w| && 0 <= j < |w| && w[i].isMain && w[j].isMain ensures i == j {
      assert w[i] == s[if 0 <= index <= i then i + 1 else i];
      assert w[j] == s[if 0 <= index <= j then j + 1 else j];
    }
  }

  /** Flagging the first entry as main when none is main turns "at most one
      main" into "exactly one main" on a non-empty list. */
  lemma PromoteKeepsMainInvariant(s: seq<UploadedImage>, r: seq<UploadedImage>)
    requires |r| == |s| && AtMostOneMain(s)
    requires forall k :: 0 <= k < |r| ==> r[k].isMain == (s[k].isMain || (k == 0 && !HasMain(s)))
    ensures MainInvariant(r)
  {
    if |r| > 0 && !HasMain(s) {
      assert r[0].isMain;
    }
    if |r| > 0 && HasMain(s) {
      var m :| 0 <= m < |s| && s[m].isMain;
      assert r[m].isMain;
    }
  }

  /** `handleMoveUp`: at index 0 nothing happens; otherwise the entry trades
      places with its predecessor and every entry is renumbered. */
  method MoveUp(images: seq<UploadedImage>, index: int) returns (r: seq<UploadedImage>)
    requires 0 <= index < |images|
    ensures index == 0 ==> r == images
    ensures index > 0 ==> (|r| == |images| &&
      forall k :: 0 <= k < |r| ==> r[k] == images[Swapped(k, index - 1, index)].(order := k))
    ensures index > 0 ==> WellOrdered(r)
    ensures MainInvariant(images) ==> MainInvariant(r)
  {
    if index == 0 {
      return images;
    }
    var a := new UploadedImage[|images|](k requires 0 <= k < |images| => images[k]);
    a[index - 1], a[index] := a[index], a[index - 1];
    Renumber(a);
    r := a[..];
    SwapKeepsMainInvariant(images, r, index - 1, index);
  }

  /** `handleMoveDown`: at the last index nothing happens; otherwise the entry
      trades places with its successor and every entry is renumbered. */
  method MoveDown(images: seq<UploadedImage>, index: int) returns (r: seq<UploadedImage>)
    requires 0 <= index < |images|
    ensures index == |images| - 1 ==> r == images
    ensures index < |images| - 1 ==> (|r| == |images| &&
      forall k :: 0 <= k < |r| ==> r[k] == images[Swapped(k, index, index + 1)].(order := k))
    ensures index < |images| - 1 ==> WellOrdered(r)
    ensures MainInvariant(images) ==> MainInvariant(r)
  {
    if index == |images| - 1 {
      return images;
    }
    var a := new UploadedImage[|images|](k requires 0 <= k < |images| => images[k]);
    a[index], a[index + 1] := a[index + 1], a[index];
    Renumber(a);
    r := a[..];
    SwapKeepsMainInvariant(images, r, index, index + 1);
  }

  /** Exchanging two entries permutes the main flags, so the main invariant
      survives. */
  lemma {:induction false} SwapKeepsMainInvariant(s: seq<UploadedImage>, r: seq<UploadedImage>, i: int, j: int)
    requires 0 <= i < |s| && 0 <= j < |s| && |r| == |s|
    requires forall k :: 0 <= k < |r| ==> r[k].isMain == s[Swapped(k, i, j)].isMain
    ensures MainInvariant(s) ==> MainInvariant(r)
  {
    if MainInvariant(s) {
      forall a, b | 0 <= a < |r| && 0 <= b < |r| && r[a].isMain && r[b].isMain ensures a == b {
        assert s[Swapped(a, i, j)].isMain && s[Swapped(b, i, j)].isMain;
      }
      if |r| > 0 {
        var m :| 0 <= m < |s| && s[m].isMain;
        var m' := Swapped(m, i, j);
        assert Swapped(m', i, j) == m;
        assert r[m'].isMain;
      }
    }
  }
}

=== FILE: listing.dfy ===
/** The property list of the admin pages (app/admin/properties/page.tsx):
    the rows matching the search parameters `q` and `type`, newest first. */
module PropertyListing {
  import opened Wrappers
  import opened Text
  import opened Sorting
  import opened PropertyStore

  /** The query string of the page; a parameter that is absent is `None`. */
  datatype SearchParams = SearchParams(q: Option<string>, propertyType: Option<string>)

  /** A parameter takes part in the filter only when it is a non-empty text. */
  predicate Given(p: Option<string>) {
    p.Some? && p.value != ""
  }

  /** `{ contains: q }` on a nullable column: a null column never matches. */
  predicate ColumnContains(column: Option<string>, q: string) {
    column.Some? && Contains(column.value, q)
  }

  /** The `where` clause: with `q`, the title or the address contains it;
      with `type`, the property type equals it; the two are conjoined. */
  predicate Matches(row: PropertyRow, params: SearchParams) {
    && (Given(params.q) ==>
          ColumnContains(row.listing.title, params.q.value) || ColumnContains(row.listing.address, params.q.value))
    && (Given(params.propertyType) ==> row.listing.propertyType == params.propertyType)
  }

  /** The ids of the rows the `where` clause selects. */
  function Selected(db: Db, params: SearchParams): (ids: set<nat>)
    ensures forall k :: k in ids <==> k in db.properties && Matches(db.properties[k], params)
  {
    set k | k in db.properties.Keys && Matches(db.properties[k], params)
  }

  /** `orderBy: { createdAt: 'desc' }` as an ascending sort on the negated
      creation time. */
  function NewestFirst(db: Db): nat -> real {
    (k: nat) => if k in db.properties then -(db.properties[k].createdAt as real) else 0.0
  }

  /** The listed ids: the selected rows enumerated by id, then sorted newest
      first (rows created at the same instant stay in id order). */
  function Listed(db: Db, params: SearchParams): (ids: seq<nat>)
    ensures SortedBy(ids, NewestFirst(db))
  {
    SortBy(KeysBelow(Selected(db, params), db.nextId), NewestFirst(db))
  }

  /** `총 N개의 매물`: the count shown above the list. */
  function Count(db: Db, params: SearchParams): nat {
    |Listed(db, params)|
  }

  /** A row is listed exactly when it matches the filter. */
  lemma ListedMembers(db: Db, params: SearchParams)
    requires ValidDb(db)
    ensures forall k :: k in Listed(db, params) <==> k in db.properties && Matches(db.properties[k], params)
  {
    var keys := KeysBelow(Selected(db, params), db.nextId);
    assert multiset(Listed(db, params)) == multiset(keys);
    forall k ensures k in Listed(db, params) <==> k in keys {
      assert k in Listed(db, params) <==> k in multiset(Listed(db, params));
      assert k in keys <==> k in multiset(keys);
    }
  }

  /** The list runs from the newest row to the oldest. */
  lemma ListedNewestFirst(db: Db, params: SearchParams)
    ensures var ids := Listed(db, params);
      forall i, j :: 0 <= i < j < |ids| && ids[i] in db.properties && ids[j] in db.properties ==>
        db.properties[ids[i]].createdAt >= db.properties[ids[j]].createdAt
  {
    var ids := Listed(db, params);
    forall i, j | 0 <= i < j < |ids| && ids[i] in db.properties && ids[j] in db.properties
      ensures db.properties[ids[i]].createdAt >= db.properties[ids[j]].createdAt
    {
      assert NewestFirst(db)(ids[i]) <= NewestFirst(db)(ids[j]);
    }
  }

  /** Without `q` and `type` every row is listed. */
  lemma NoFilterListsAll(db: Db, params: SearchParams)
    requires ValidDb(db)
    requires !Given(params.q) && !Given(params.propertyType)
    ensures forall k :: k in Listed(db, params) <==> k in db.properties
  {
    ListedMembers(db, params);
  }

  /** Adding a `type` to a search narrows it: each row listed with both
      parameters is listed with `q` alone. */
  lemma TypeNarrows(db: Db, q: Option<string>, propertyType: Option<string>)
    requires ValidDb(db)
    ensures forall k :: k in Listed(db, SearchParams(q, propertyType)) ==> k in Listed(db, SearchParams(q, None))
  {
    ListedMembers(db, SearchParams(q, propertyType));
    ListedMembers(db, SearchParams(q, None));
  }

  /** The count is the number of matching rows. */
  lemma CountMatches(db: Db, params: SearchParams)
    requires ValidDb(db)
    ensures Count(db, params) == |Selected(db, params)|
  {
    KeysBelowCount(Selected(db, params), db.nextId);
    assert Selected(db, params) == KeysUnder(Selected(db, params), db.nextId);
  }

  /** The enumeration below `bound` holds each key below it once. */
  lemma {:induction false} KeysBelowCount(keys: set<nat>, bound: nat)
    ensures |KeysBelow(keys, bound)| == |KeysUnder(keys, bound)|
  {
    if bound > 0 {
      KeysBelowCount(keys, bound - 1);
      KeysUnderStep(keys, bound);
    }
  }

  lemma KeysUnderStep(keys: set<nat>, bound: nat)
    requires bound > 0
    ensures bound - 1 in keys ==> |KeysUnder(keys, bound)| == |KeysUnder(keys, bound - 1)| + 1
    ensures bound - 1 !in keys ==> KeysUnder(keys, bound) == KeysUnder(keys, bound - 1)
  {
    if bound - 1 in keys {
      assert KeysUnder(keys, bound) == KeysUnder(keys, bound - 1) + {bound - 1};
    }
  }

  function KeysUnder(keys: set<nat>, bound: nat): (r: set<nat>)
    ensures forall k :: k in r <==> k in keys && k < bound
  {
    set k | k in keys && k < bound
  }
}

=== FILE: middleware.dfy ===
/** The request guard (middleware.ts): a request for an admin page without a
    session is sent to the login page; every other request goes through. */
module Middleware {
  import opened Wrappers
  import opened Text
  import opened Forms

  datatype Decision = Redirect(path: string) | Next

  const LoginPath: string := "/login"
  const AdminPrefix: string := "/admin"

  /** The callback run for a matched request. */
  function Guard(pathname: string, session: Option<SessionUser>): (d: Decision)
    ensures d.Redirect? ==> d.path == LoginPath
    ensures d.Redirect? <==> StartsWith(pathname, AdminPrefix) && session.None?
  {
    if StartsWith(pathname, AdminPrefix) && session.None? then Redirect(LoginPath) else Next
  }

  /** The pattern `/admin/:path*`: `/admin` itself or any path below it. */
  predicate Matched(pathname: string) {
    pathname == AdminPrefix || StartsWith(pathname, AdminPrefix + "/")
  }

  /** What a request meets: the guard for matched paths, nothing otherwise. */
  function Route(pathname: string, session: Option<SessionUser>): Decision {
    if Matched(pathname) then Guard(pathname, session) else Next
  }

  /** Every matched path passes the guard's own prefix test, so a request is
      redirected exactly when it is matched and has no session. */
  lemma RouteRedirects(pathname: string, session: Option<SessionUser>)
    ensures Route(pathname, session).Redirect? <==> Matched(pathname) && session.None?
    ensures session.Some? ==> Route(pathname, session) == Next
  {
    if StartsWith(pathname, AdminPrefix + "/") {
      assert pathname[..|AdminPrefix|] == (AdminPrefix + "/")[..|AdminPrefix|];
    }
  }

  /** The guard's test is wider than the pattern: `/administrator` starts
      with `/admin` but is not matched, so it is never redirected. */
  lemma PrefixWiderThanMatcher()
    ensures StartsWith("/administrator", AdminPrefix) && !Matched("/administrator")
    ensures Guard("/administrator", None).Redirect? && Route("/administrator", None) == Next
  {
    assert "/administrator"[..|AdminPrefix|] == AdminPrefix;
    assert "/administrator"[6] != '/';
  }
}

=== FILE: numbers.dfy ===
/** JavaScript numbers as the core uses them: the result of `Number(...)`,
    which is either a finite value or NaN, and its truthiness. */
module Numbers {
  import opened Wrappers
  import opened Text

  datatype JsNumber = Finite(value: real) | NaN

  /** A number is truthy unless it is 0 or NaN. */
  predicate Truthy(n: JsNumber) {
    n.Finite? && n.value != 0.0
  }

  predicate AllDigits(s: string) {
    forall i :: 0 <= i < |s| ==> IsDigit(s[i])
  }

  function DigitsValue(ds: string): nat
    requires AllDigits(ds)
  {
    if ds == [] then 0 else DigitsValue(ds[..|ds| - 1]) * 10 + (ds[|ds| - 1] as int - '0' as int)
  }

  /** `String(n)` reads back as `n`: its digits are decimal digits whose
      value is `n`. */
  lemma {:induction false} NatToStringValue(n: nat)
    ensures AllDigits(NatToString(n)) && DigitsValue(NatToString(n)) == n
  {
    var r := NatToString(n);
    if n >= 10 {
      NatToStringValue(n / 10);
      assert r[..|r| - 1] == NatToString(n / 10);
    }
  }

  function Pow10(k: nat): (r: nat)
    ensures r >= 1
  {
    if k == 0 then 1 else 10 * Pow10(k - 1)
  }

  /** Index of the first `c` in `s`, or `|s|` when there is none. */
  function IndexOf(s: string, c: char): (r: nat)
    ensures r <= |s|
    ensures r < |s| ==> s[r] == c
    ensures forall i :: 0 <= i < r ==> s[i] != c
  {
    if s == [] then 0 else if s[0] == c then 0 else 1 + IndexOf(s[1..], c)
  }

  /** An unsigned decimal literal `ddd`, `ddd.ddd`, `ddd.` or `.ddd` with at
      least one digit; anything else is NaN. */
  function ParseUnsigned(s: string): (r: JsNumber)
    ensures r.Finite? ==> r.value >= 0.0
    ensures s == [] ==> r == NaN
  {
    var dot := IndexOf(s, '.');
    var whole := s[..dot];
    var frac := if dot < |s| then s[dot + 1..] else "";
    if |whole| + |frac| > 0 && AllDigits(whole) && AllDigits(frac) then
      Finite(DigitsValue(whole) as real + DigitsValue(frac) as real / Pow10(|frac|) as real)
    else NaN
  }

  /** `Number(s)` for a string: surrounding white space is ignored, the empty
      string is 0, and a signed decimal literal is its value. */
  function ParseNumber(s: string): (r: JsNumber)
    ensures Trim(s) == "" ==> r == Finite(0.0)
  {
    var t := Trim(s);
    if t == "" then Finite(0.0)
    else if t[0] == '-' then
      match ParseUnsigned(t[1..])
      case Finite(v) => Finite(-v)
      case NaN => NaN
    else if t[0] == '+' then ParseUnsigned(t[1..])
    else ParseUnsigned(t)
  }

  /** `Number(x)` where `x` is what `formData.get` returned: `Number(null)` is 0. */
  function NumberOfField(v: Option<string>): (r: JsNumber)
    ensures v.None? ==> r == Finite(0.0)
  {
    match v
    case None => Finite(0.0)
    case Some(s) => ParseNumber(s)
  }

}

=== FILE: properties_route.dfy ===
/** `POST /api/properties` (app/api/properties/route.ts): registers a
    property from the admin form. The base row, the optional agent row and
    one image row per staged URL are written in one transaction; after it
    commits, the staged files are moved into the property folder and the
    image rows, read back in ascending `order`, are patched with the moved
    URLs. A failure in that last step does not change the response. */
module PropertiesRoute {
  import opened Wrappers
  import opened Numbers
  import opened Forms
  import opened Sorting
  import opened FileUpload
  import opened PropertyStore

  datatype Response = Success(propertyId: nat, message: string) | Failure(status: nat, error: string)

  const NoUserId: string := "사용자 ID를 찾을 수 없습니다."
  const Registered: string := "매물이 성공적으로 등록되었습니다."

  /** `user.id || user.email || user.sub`: the first non-empty one. */
  function UserIdOf(u: SessionUser): (r: Option<string>)
    ensures r.None? <==> u.id == "" && u.email == "" && u.sub == ""
    ensures r.Some? ==> r.value != ""
    ensures u.id != "" ==> r == Some(u.id)
    ensures u.id == "" && u.email != "" ==> r == Some(u.email)
    ensures u.id == "" && u.email == "" && u.sub != "" ==> r == Some(u.sub)
  {
    if u.id != "" then Some(u.id)
    else if u.email != "" then Some(u.email)
    else if u.sub != "" then Some(u.sub)
    else None
  }

  /** `Number(imageOrders[i]) || i`: a position past the end of `orders` reads
      `undefined`, whose number is NaN, so it falls back to `i` too. */
  function ImageOrder(orders: seq<string>, i: nat): (r: real)
    ensures i < |orders| && Truthy(ParseNumber(orders[i])) ==> r == ParseNumber(orders[i]).value
    ensures i < |orders| && !Truthy(ParseNumber(orders[i])) ==> r == i as real
    ensures i >= |orders| ==> r == i as real
    ensures r == 0.0 ==> i == 0
  {
    var n := if i < |orders| then ParseNumber(orders[i]) else NaN;
    if Truthy(n) then n.value else i as real
  }

  /** `index === Number(mainImageIndex)`; a missing index reads as 0 and NaN
      equals nothing. */
  predicate IsMainIndex(mainImageIndex: Option<string>, i: nat) {
    var n := NumberOfField(mainImageIndex);
    n.Finite? && n.value == i as real
  }

  /** The rows of the `createMany`, one per staged URL, in URL order. */
  function ImageRows(propertyId: nat, urls: seq<string>, orders: seq<string>, mainImageIndex: Option<string>)
    : (rows: seq<ImageRow>)
    ensures |rows| == |urls|
    ensures forall i :: 0 <= i < |rows| ==>
      && rows[i].propertyId == propertyId
      && rows[i].url == urls[i]
      && rows[i].order == ImageOrder(orders, i)
      && (rows[i].isMain <==> IsMainIndex(mainImageIndex, i))
  {
    seq(|urls|, i requires 0 <= i < |urls| => ImageRow(propertyId, urls[i], ImageOrder(orders, i), IsMainIndex(mainImageIndex, i)))
  }

  /** At most one row is main; without a main index the first row is. */
  lemma ImageRowsMain(propertyId: nat, urls: seq<string>, orders: seq<string>, mainImageIndex: Option<string>)
    ensures var rows := ImageRows(propertyId, urls, orders, mainImageIndex);
      forall i, j :: 0 <= i < j < |rows| ==> !(rows[i].isMain && rows[j].isMain)
    ensures mainImageIndex.None? && urls != [] ==> ImageRows(propertyId, urls, orders, mainImageIndex)[0].isMain
  {
  }

  /** The agent row is written only when `officeName` or `agentPhone` is
      non-empty. */
  function AgentRowOf(form: FormData): (a: Option<AgentInfo>)
    ensures a.Some? <==> Present(form, "officeName") || Present(form, "agentPhone")
    ensures a.Some? ==> a.value == AgentOf(form)
  {
    if Present(form, "officeName") || Present(form, "agentPhone") then Some(AgentOf(form)) else None
  }

  /** `tx.image.createMany` when there is at least one row. */
  function WithImages(d: Db, rows: seq<ImageRow>): Db {
    if |rows| > 0 then
      d.(images := AddImages(d.images, d.nextImageId, rows), nextImageId := d.nextImageId + |rows|)
    else d
  }

  /** The base row of a registration: the form's columns, status AVAILABLE,
      owned by the session user. */
  function NewRow(userId: string, form: FormData, now: int): PropertyRow {
    PropertyRow(ListingOf(form), Some(Available), userId, now)
  }

  /** The writes of the transaction: the base row under the next id without
      an extension row, the agent row if any, then the image rows. */
  function Transaction(db: Db, row: PropertyRow, agent: Option<AgentInfo>, rows: seq<ImageRow>): Db {
    WithImages(Inserted(db, row, NoExtension, agent), rows)
  }

  /** The tables after the transaction of a registration commits. */
  function Registration(db: Db, userId: string, form: FormData, urls: seq<string>, orders: seq<string>, now: int): Db {
    Transaction(db, NewRow(userId, form, now), AgentRowOf(form),
                ImageRows(db.nextId, urls, orders, Get(form, "mainImageIndex")))
  }

  /** The ids of the image rows of `propertyId`. */
  function ImagesOf(images: map<nat, ImageRow>, propertyId: nat): (ids: set<nat>)
    ensures forall k :: k in ids <==> k in images && images[k].propertyId == propertyId
  {
    set k | k in images && images[k].propertyId == propertyId
  }

  function OrderOf(images: map<nat, ImageRow>, k: nat): real {
    if k in images then images[k].order else 0.0
  }

  function ByOrder(images: map<nat, ImageRow>): nat -> real {
    (k: nat) => OrderOf(images, k)
  }

  /** `findMany({ where: { propertyId }, orderBy: { order: 'asc' } })`,
      reduced to the row ids; `bound` is the image id counter. */
  function FoundImages(images: map<nat, ImageRow>, propertyId: nat, bound: nat): (ids: seq<nat>)
    ensures forall k :: k in ids <==> k in ImagesOf(images, propertyId) && k < bound
    ensures SortedBy(ids, ByOrder(images))
  {
    var keys := KeysBelow(ImagesOf(images, propertyId), bound);
    var ids := SortBy(keys, ByOrder(images));
    assert forall k :: k in ids <==> k in multiset(keys);
    ids
  }

  /** The read-back lists each image once. */
  lemma FoundImagesDistinct(images: map<nat, ImageRow>, propertyId: nat, bound: nat)
    ensures Distinct(FoundImages(images, propertyId, bound))
  {
    SortByDistinct(KeysBelow(ImagesOf(images, propertyId), bound), ByOrder(images));
  }

  /** The image table after the first `n` updates of the patch loop: the row
      `ids[k]` gets the URL `moved[k]`. */
  function Patched(images: map<nat, ImageRow>, ids: seq<nat>, moved: seq<string>, n: nat): (r: map<nat, ImageRow>)
    requires n <= |ids| && n <= |moved|
    requires forall k :: 0 <= k < |ids| ==> ids[k] in images
    ensures r.Keys == images.Keys
  {
    if n == 0 then images
    else
      var m := Patched(images, ids, moved, n - 1);
      m[ids[n - 1] := m[ids[n - 1]].(url := moved[n - 1])]
  }

  /** Every row not among the first `n` ids is left as it was. */
  lemma {:induction false} PatchedUntouched(images: map<nat, ImageRow>, ids: seq<nat>, moved: seq<string>, n: nat)
    requires n <= |ids| && n <= |moved|
    requires forall k :: 0 <= k < |ids| ==> ids[k] in images
    ensures forall i :: i in images && i !in ids[..n] ==> Patched(images, ids, moved, n)[i] == images[i]
  {
    if n > 0 {
      PatchedUntouched(images, ids, moved, n - 1);
      assert ids[..n] == ids[..n - 1] + [ids[n - 1]];
    }
  }

  /** With distinct ids, the k-th id gets the k-th URL and keeps its other
      columns. */
  lemma {:induction false} PatchedAt(images: map<nat, ImageRow>, ids: seq<nat>, moved: seq<string>, n: nat, k: nat)
    requires k < n <= |ids| && n <= |moved|
    requires forall k :: 0 <= k < |ids| ==> ids[k] in images
    requires forall i, j :: 0 <= i < j < |ids| ==> ids[i] != ids[j]
    ensures Patched(images, ids, moved, n)[ids[k]] == images[ids[k]].(url := moved[k])
  {
    if k == n - 1 {
      PatchedUntouched(images, ids, moved, n - 1);
      var prefix := ids[..n - 1];
      assert ids[k] !in prefix by {
        forall j | 0 <= j < |prefix| ensures prefix[j] != ids[k] {
          assert ids[j] != ids[n - 1];
        }
      }
    } else {
      PatchedAt(images, ids, moved, n - 1, k);
      assert ids[k] != ids[n - 1];
    }
  }

  lemma PatchedRows(images: map<nat, ImageRow>, ids: seq<nat>, moved: seq<string>, n: nat)
    requires n <= |ids| && n <= |moved|
    requires forall k :: 0 <= k < |ids| ==> ids[k] in images
    requires forall i, j :: 0 <= i < j < |ids| ==> ids[i] != ids[j]
    ensures forall k :: 0 <= k < n ==> Patched(images, ids, moved, n)[ids[k]] == images[ids[k]].(url := moved[k])
  {
    forall k | 0 <= k < n
      ensures Patched(images, ids, moved, n)[ids[k]] == images[ids[k]].(url := moved[k])
    {
      PatchedAt(images, ids, moved, n, k);
    }
  }

  /** The image table after the patch loop: the rows of the property, by
      ascending `order`, take the moved URLs pairwise while both lists last. */
  function PatchedImages(images: map<nat, ImageRow>, propertyId: nat, bound: nat, moved: seq<string>)
    : map<nat, ImageRow>
  {
    var ids := FoundImages(images, propertyId, bound);
    Patched(images, ids, moved, if |ids| <= |moved| then |ids| else |moved|)
  }

  /** The tables after the post-commit step. */
  function AfterMove(d: Db, propertyId: nat, moved: seq<string>): Db {
    d.(images := PatchedImages(d.images, propertyId, d.nextImageId, moved))
  }

  /** The post-commit patch: the row `i` read back k-th by ascending
      `order` takes the k-th moved URL while both lists last, and keeps its
      other columns. */
  lemma AfterMovePatches(d: Db, propertyId: nat, moved: seq<string>, k: nat, i: nat)
    requires k < |FoundImages(d.images, propertyId, d.nextImageId)| && k < |moved|
    requires FoundImages(d.images, propertyId, d.nextImageId)[k] == i
    ensures i in d.images && i in AfterMove(d, propertyId, moved).images
    ensures AfterMove(d, propertyId, moved).images[i] == d.images[i].(url := moved[k])
  {
    var ids := FoundImages(d.images, propertyId, d.nextImageId);
    var n := if |ids| <= |moved| then |ids| else |moved|;
    FoundImagesDistinct(d.images, propertyId, d.nextImageId);
    PatchedAt(d.images, ids, moved, n, k);
  }

  /** The post-commit patch changes only image rows of the property, keeps
      every image id, and leaves every other table alone. */
  lemma AfterMoveUntouched(d: Db, propertyId: nat, moved: seq<string>)
    ensures var a := AfterMove(d, propertyId, moved);
      && a == d.(images := a.images)
      && a.images.Keys == d.images.Keys
      && forall i :: i in d.images && d.images[i].propertyId != propertyId ==> a.images[i] == d.images[i]
  {
    var ids := FoundImages(d.images, propertyId, d.nextImageId);
    var n := if |ids| <= |moved| then |ids| else |moved|;
    PatchedUntouched(d.images, ids, moved, n);
    forall i | i in d.images && d.images[i].propertyId != propertyId ensures i !in ids[..n] {
      assert i !in ids;
    }
  }

  /** Adding image rows of an existing property keeps integrity, advances the
      image id past them and leaves every earlier image row alone. */
  lemma WithImagesKeepsValid(d: Db, rows: seq<ImageRow>, id: nat)
    requires ValidDb(d) && id in d.properties
    requires forall k :: 0 <= k < |rows| ==> rows[k].propertyId == id
    ensures var d' := WithImages(d, rows);
      && ValidDb(d')
      && d' == d.(images := d'.images, nextImageId := d.nextImageId + |rows|)
      && (forall i :: i in d.images ==> i in d'.images && d'.images[i] == d.images[i])
  {
    if |rows| > 0 {
      var base := d.nextImageId;
      var added := AddImages(d.images, base, rows);
      forall i | i in added ensures i < base + |rows| && added[i].propertyId in d.properties {
        if base <= i {
          assert i in IdRange(base, |rows|);
          assert added[i] == rows[i - base];
        } else {
          assert added[i] == d.images[i];
        }
      }
    }
  }

  /** When the property had no image rows, its image rows are then exactly
      the new ones, under consecutive ids. */
  lemma WithImagesRows(d: Db, rows: seq<ImageRow>, id: nat)
    requires forall i :: i in d.images ==> d.images[i].propertyId != id
    requires forall k :: 0 <= k < |rows| ==> rows[k].propertyId == id
    ensures var d' := WithImages(d, rows);
      && ImagesOf(d'.images, id) == IdRange(d.nextImageId, |rows|)
      && (forall i :: i in IdRange(d.nextImageId, |rows|) ==> d'.images[i] == rows[i - d.nextImageId])
  {
    if |rows| > 0 {
      AddedImagesOf(d.images, d.nextImageId, rows, id);
    } else {
      assert IdRange(d.nextImageId, 0) == {};
    }
  }

  lemma AddedImagesOf(images: map<nat, ImageRow>, base: nat, rows: seq<ImageRow>, id: nat)
    requires forall i :: i in images ==> images[i].propertyId != id
    requires forall k :: 0 <= k < |rows| ==> rows[k].propertyId == id
    ensures ImagesOf(AddImages(images, base, rows), id) == IdRange(base, |rows|)
  {
    var added := AddImages(images, base, rows);
    forall i ensures i in ImagesOf(added, id) <==> i in IdRange(base, |rows|) {
      if i in IdRange(base, |rows|) {
        assert added[i] == rows[i - base];
      } else if i in added {
        assert added[i] == images[i];
      }
    }
  }

  /** The transaction keeps integrity; it adds the base row under the next
      id, no extension row, the agent row exactly when there is one, and the
      image rows under consecutive image ids; no other row changes. */
  lemma {:induction false} TransactionRows(db: Db, row: PropertyRow, agent: Option<AgentInfo>, rows: seq<ImageRow>)
    requires ValidDb(db)
    requires forall k :: 0 <= k < |rows| ==> rows[k].propertyId == db.nextId
    ensures var d := Transaction(db, row, agent, rows);
      var id := db.nextId; var base := db.nextImageId;
      && ValidDb(d)
      && id !in db.properties
      && d.properties == db.properties[id := row]
      && d.commercial == db.commercial && d.land == db.land && d.office == db.office && d.factory == db.factory
      && (id in d.agents <==> agent.Some?)
      && d.agents == (if agent.Some? then db.agents[id := agent.value] else db.agents)
      && d.nextImageId == base + |rows|
      && ImagesOf(d.images, id) == IdRange(base, |rows|)
      && (forall i :: i in IdRange(base, |rows|) ==> d.images[i] == rows[i - base])
      && (forall i :: i in db.images ==> i in d.images && d.images[i] == db.images[i])
  {
    var id := db.nextId;
    InsertedRows(db, row, NoExtension, agent);
    InsertKeepsValid(db, row, NoExtension, agent);
    WithImagesKeepsValid(Inserted(db, row, NoExtension, agent), rows, id);
    WithImagesRows(Inserted(db, row, NoExtension, agent), rows, id);
  }

  /** The image part of `TransactionRows`: the property's image rows are
      the new rows under consecutive ids. */
  lemma TransactionImages(db: Db, row: PropertyRow, agent: Option<AgentInfo>, rows: seq<ImageRow>)
    requires ValidDb(db)
    requires forall k :: 0 <= k < |rows| ==> rows[k].propertyId == db.nextId
    ensures var d := Transaction(db, row, agent, rows); var base := db.nextImageId;
      && d.nextImageId == base + |rows|
      && ImagesOf(d.images, db.nextId) == IdRange(base, |rows|)
      && (forall i :: i in IdRange(base, |rows|) ==> d.images[i] == rows[i - base])
  {
    TransactionRows(db, row, agent, rows);
  }

  /** A registration adds an AVAILABLE row owned by the session user, an
      agent row exactly when `officeName` or `agentPhone` is non-empty, and
      one image row per URL. */
  lemma RegistrationRows(db: Db, userId: string, form: FormData, urls: seq<string>, orders: seq<string>, now: int)
    requires ValidDb(db)
    ensures var d := Registration(db, userId, form, urls, orders, now); var id := db.nextId;
      && ValidDb(d)
      && id in d.properties && d.properties[id].status == Some(Available) && d.properties[id].userId == userId
      && (id in d.agents <==> Present(form, "officeName") || Present(form, "agentPhone"))
      && |ImagesOf(d.images, id)| == |urls|
  {
    var rows := ImageRows(db.nextId, urls, orders, Get(form, "mainImageIndex"));
    TransactionRows(db, NewRow(userId, form, now), AgentRowOf(form), rows);
    IdRangeSize(db.nextImageId, |urls|);
  }

  lemma {:induction false} IdRangeSize(base: nat, n: nat)
    ensures |IdRange(base, n)| == n
  {
    if n > 0 {
      IdRangeSize(base, n - 1);
      assert base + n - 1 !in IdRange(base, n - 1);
      assert IdRange(base, n) == IdRange(base, n - 1) + {base + n - 1};
    }
  }

  /** The ids `base`, ..., `base + n - 1`, ascending. */
  function Ids(base: nat, n: nat): (r: seq<nat>)
    ensures |r| == n
    ensures forall k :: 0 <= k < n ==> r[k] == base + k
  {
    if n == 0 then [] else Ids(base, n - 1) + [base + n - 1]
  }

  /** The members of `keys` below `b` are enumerated as `base`, ..., `b - 1`
      when those are exactly the members. */
  lemma {:induction false} KeysOfRange(keys: set<nat>, base: nat, b: nat)
    requires base <= b
    requires forall k :: k < b ==> (k in keys <==> base <= k)
    ensures KeysBelow(keys, b) == Ids(base, b - base)
  {
    if b > base {
      KeysOfRange(keys, base, b - 1);
      assert KeysBelow(keys, b) == KeysBelow(keys, b - 1) + [b - 1];
      assert Ids(base, b - base) == Ids(base, b - 1 - base) + [b - 1];
    } else {
      NoKeysBelow(keys, b);
    }
  }

  lemma {:induction false} NoKeysBelow(keys: set<nat>, b: nat)
    requires forall k :: k < b ==> k !in keys
    ensures KeysBelow(keys, b) == []
  {
    if b > 0 {
      NoKeysBelow(keys, b - 1);
    }
  }

  /** When each row's order is its position, the rows are read back by id. */
  lemma {:induction false} PositionalRowsFound(images: map<nat, ImageRow>, id: nat, base: nat, n: nat, bound: nat)
    requires bound == base + n
    requires ImagesOf(images, id) == IdRange(base, n)
    requires forall i :: i in IdRange(base, n) ==> images[i].order == (i - base) as real
    ensures FoundImages(images, id, bound) == Ids(base, n)
  {
    KeysOfRange(ImagesOf(images, id), base, bound);
    var r := Ids(base, n);
    assert KeysBelow(ImagesOf(images, id), bound) == r;
    assert SortedBy(r, ByOrder(images)) by {
      forall i | 0 <= i < |r| ensures ByOrder(images)(r[i]) == i as real {
        assert r[i] in IdRange(base, n);
        assert ByOrder(images)(r[i]) == OrderOf(images, r[i]);
      }
    }
    SortOfSorted(r, ByOrder(images));
    assert FoundImages(images, id, bound) == SortBy(r, ByOrder(images));
  }

  /** When every image row's order is its position, the rows of the
      transaction are read back in insertion order. */
  lemma PositionalRowsAlign(db: Db, row: PropertyRow, agent: Option<AgentInfo>, rows: seq<ImageRow>)
    requires ValidDb(db)
    requires forall k :: 0 <= k < |rows| ==> rows[k].propertyId == db.nextId && rows[k].order == k as real
    ensures var d := Transaction(db, row, agent, rows);
      FoundImages(d.images, db.nextId, d.nextImageId) == Ids(db.nextImageId, |rows|)
  {
    TransactionImages(db, row, agent, rows);
    var d := Transaction(db, row, agent, rows);
    var base := db.nextImageId;
    forall i | i in IdRange(base, |rows|) ensures d.images[i].order == (i - base) as real {
      assert d.images[i] == rows[i - base];
    }
    PositionalRowsFound(d.images, db.nextId, base, |rows|, d.nextImageId);
  }

  /** Image rows of property `id` whose `order` is their position. */
  ghost predicate PositionalRows(rows: seq<ImageRow>, id: nat) {
    forall k :: 0 <= k < |rows| ==> rows[k].propertyId == id && rows[k].order == k as real
  }

  /** The read-back of `PositionalRowsAlign`, position by position: the
      k-th row read back is the k-th new image id. */
  lemma PositionalReadBack(db: Db, row: PropertyRow, agent: Option<AgentInfo>, rows: seq<ImageRow>)
    requires ValidDb(db) && PositionalRows(rows, db.nextId)
    ensures var d := Transaction(db, row, agent, rows);
      var found := FoundImages(d.images, db.nextId, d.nextImageId);
      && |found| == |rows|
      && forall k :: 0 <= k < |rows| ==> found[k] == db.nextImageId + k
  {
    PositionalRowsAlign(db, row, agent, rows);
  }

  /** When every image row's order is its position, the patch gives the
      k-th new row the k-th moved URL. */
  lemma PositionalRowsPatched(db: Db, row: PropertyRow, agent: Option<AgentInfo>, rows: seq<ImageRow>,
                              moved: seq<string>, k: nat)
    requires ValidDb(db) && PositionalRows(rows, db.nextId)
    requires k < |rows| && k < |moved|
    ensures var a := AfterMove(Transaction(db, row, agent, rows), db.nextId, moved);
      db.nextImageId + k in a.images && a.images[db.nextImageId + k] == rows[k].(url := moved[k])
  {
    PositionalReadBack(db, row, agent, rows);
    TransactionImages(db, row, agent, rows);
    var d := Transaction(db, row, agent, rows);
    assert db.nextImageId + k in IdRange(db.nextImageId, |rows|);
    AfterMovePatches(d, db.nextId, moved, k, db.nextImageId + k);
  }

  /** Image rows built from the form whose orders are their positions. */
  lemma PositionalImageRows(propertyId: nat, urls: seq<string>, orders: seq<string>, mainImageIndex: Option<string>)
    requires forall i :: 0 <= i < |urls| ==> ImageOrder(orders, i) == i as real
    ensures PositionalRows(ImageRows(propertyId, urls, orders, mainImageIndex), propertyId)
  {
    var rows := ImageRows(propertyId, urls, orders, mainImageIndex);
    forall k | 0 <= k < |rows| ensures rows[k].propertyId == propertyId && rows[k].order == k as real {
      assert rows[k].order == ImageOrder(orders, k);
    }
  }

  /** When every order is the row's position (the form sent no orders, or
      sent `0`, `1`, ...), the rows are read back in URL order. */
  lemma PositionalOrdersAlign(db: Db, row: PropertyRow, agent: Option<AgentInfo>,
                              urls: seq<string>, orders: seq<string>, mainImageIndex: Option<string>)
    requires ValidDb(db)
    requires forall i :: 0 <= i < |urls| ==> ImageOrder(orders, i) == i as real
    ensures var d := Transaction(db, row, agent, ImageRows(db.nextId, urls, orders, mainImageIndex));
      FoundImages(d.images, db.nextId, d.nextImageId) == Ids(db.nextImageId, |urls|)
  {
    PositionalImageRows(db.nextId, urls, orders, mainImageIndex);
    PositionalRowsAlign(db, row, agent, ImageRows(db.nextId, urls, orders, mainImageIndex));
  }

  /** With the same orders, the patch gives the row made from the k-th URL
      the k-th moved URL, and keeps its other columns. */
  lemma PositionalOrdersPatched(db: Db, row: PropertyRow, agent: Option<AgentInfo>,
                                urls: seq<string>, orders: seq<string>, mainImageIndex: Option<string>,
                                moved: seq<string>, k: nat)
    requires ValidDb(db)
    requires forall i :: 0 <= i < |urls| ==> ImageOrder(orders, i) == i as real
    requires k < |urls| && k < |moved|
    ensures var rows := ImageRows(db.nextId, urls, orders, mainImageIndex);
      var a := AfterMove(Transaction(db, row, agent, rows), db.nextId, moved);
      db.nextImageId + k in a.images && a.images[db.nextImageId + k] == rows[k].(url := moved[k])
  {
    PositionalImageRows(db.nextId, urls, orders, mainImageIndex);
    PositionalRowsPatched(db, row, agent, ImageRows(db.nextId, urls, orders, mainImageIndex), moved, k);
  }

  /** Two rows whose orders are reversed are read back in reverse. */
  lemma ReversedRowsFound(images: map<nat, ImageRow>, id: nat, base: nat, bound: nat)
    requires bound == base + 2
    requires ImagesOf(images, id) == IdRange(base, 2)
    requires images[base + 1].order < images[base].order
    ensures FoundImages(images, id, bound) == [base + 1, base]
  {
    KeysOfRange(ImagesOf(images, id), base, bound);
    assert Ids(base, 2) == [base, base + 1];
    assert ByOrder(images)(base + 1) < ByOrder(images)(base);
    SwappedPair(base, base + 1, ByOrder(images));
  }

  /** Sorting two elements whose keys are out of order swaps them. */
  lemma SwappedPair(a: nat, b: nat, key: nat -> real)
    requires key(b) < key(a)
    ensures SortBy([a, b], key) == [b, a]
  {
    var s: seq<nat> := [a, b];
    assert s[1..] == [b];
    assert SortBy([b], key) == Insert(b, [], key) == [b];
    assert Insert(a, [b], key) == [b] + Insert(a, [], key);
  }

  /** Of two transaction image rows, the second ordered before the first is
      read back first. */
  lemma ReversedRowsCross(db: Db, row: PropertyRow, agent: Option<AgentInfo>, rows: seq<ImageRow>)
    requires ValidDb(db)
    requires |rows| == 2 && rows[0].propertyId == db.nextId && rows[1].propertyId == db.nextId
    requires rows[1].order < rows[0].order
    ensures var d := Transaction(db, row, agent, rows);
      FoundImages(d.images, db.nextId, d.nextImageId) == [db.nextImageId + 1, db.nextImageId]
  {
    TransactionImages(db, row, agent, rows);
    var d := Transaction(db, row, agent, rows);
    var base := db.nextImageId;
    assert base in IdRange(base, 2) && base + 1 in IdRange(base, 2);
    assert d.images[base] == rows[0] && d.images[base + 1] == rows[1];
    ReversedRowsFound(d.images, db.nextId, base, d.nextImageId);
  }

  /** With two URLs whose orders are reversed (`2`, `1`, say), the rows are
      read back second first, so the patch gives the row made from the first
      URL the second moved URL and vice versa. */
  lemma ReversedOrdersCross(db: Db, row: PropertyRow, agent: Option<AgentInfo>,
                            urls: seq<string>, orders: seq<string>, mainImageIndex: Option<string>)
    requires ValidDb(db)
    requires |urls| == 2
    requires ImageOrder(orders, 1) < ImageOrder(orders, 0)
    ensures var d := Transaction(db, row, agent, ImageRows(db.nextId, urls, orders, mainImageIndex));
      FoundImages(d.images, db.nextId, d.nextImageId) == [db.nextImageId + 1, db.nextImageId]
  {
    ReversedRowsCross(db, row, agent, ImageRows(db.nextId, urls, orders, mainImageIndex));
  }

  /** Patching `[b + 1, b]` crosses the two URLs. */
  lemma CrossedPatch(images: map<nat, ImageRow>, b: nat, moved: seq<string>)
    requires b in images && b + 1 in images && |moved| == 2
    ensures Patched(images, [b + 1, b], moved, 2)[b] == images[b].(url := moved[1])
    ensures Patched(images, [b + 1, b], moved, 2)[b + 1] == images[b + 1].(url := moved[0])
  {
    PatchedRows(images, [b + 1, b], moved, 2);
  }

  /** The patch loop, one `image.update` per pair. */
  method PatchUrls(store: Store, ids: seq<nat>, moved: seq<string>)
    requires store.Valid()
    requires forall k :: 0 <= k < |ids| ==> ids[k] in store.images
    modifies store
    ensures store.State() == old(store.State()).(images :=
      Patched(old(store.images), ids, moved, if |ids| <= |moved| then |ids| else |moved|))
    ensures store.Valid()
  {
    var i := 0;
    while i < |ids| && i < |moved|
      invariant i <= |ids| && i <= |moved|
      invariant store.State() == old(store.State()).(images := Patched(old(store.images), ids, moved, i))
      invariant store.Valid()
    {
      store.UpdateImageUrl(ids[i], moved[i]);
      i := i + 1;
    }
    assert i == if |ids| <= |moved| then |ids| else |moved|;
  }

  /** `tx.property.create`, then `tx.agentInfo.create` when there is an
      agent row; the route writes no extension row. */
  method InsertProperty(store: Store, row: PropertyRow, agent: Option<AgentInfo>) returns (id: nat)
    requires store.Valid()
    modifies store
    ensures id == old(store.nextId)
    ensures store.State() == Inserted(old(store.State()), row, NoExtension, agent)
    ensures store.Valid()
  {
    id := store.Insert(row, NoExtension, agent);
  }

  /** The transaction: the base row, the agent row when asked for, then the
      image rows. */
  method Commit(store: Store, userId: string, form: FormData, imageUrls: seq<string>, imageOrders: seq<string>, now: int)
    returns (id: nat)
    requires store.Valid()
    modifies store
    ensures id == old(store.nextId)
    ensures store.State() == Registration(old(store.State()), userId, form, imageUrls, imageOrders, now)
    ensures store.Valid()
  {
    var row := NewRow(userId, form, now);
    var agent := AgentRowOf(form);
    var rows := ImageRows(store.nextId, imageUrls, imageOrders, Get(form, "mainImageIndex"));
    id := InsertProperty(store, row, agent);
    if |imageUrls| > 0 {
      store.InsertImages(rows);
    }
  }

  /** The post-commit step: move the staged files, read the rows back by
      ascending `order` and patch their URLs. */
  method MoveAndPatch(store: Store, fs: FileStore, id: nat, imageUrls: seq<string>)
    requires store.Valid()
    modifies store, fs
    ensures store.Valid()
    ensures fs.files == MoveAll(old(fs.files), imageUrls, id).0
    ensures store.State() == AfterMove(old(store.State()), id, MoveAll(old(fs.files), imageUrls, id).1)
  {
    var moved := fs.MoveUploadedFiles(imageUrls, id);
    var ids := FoundImages(store.images, id, store.nextImageId);
    PatchUrls(store, ids, moved);
  }

  /** The handler. The session is an input; the transaction is the run of
      store writes between the checks and the move; `moveFails` stands for
      an error thrown by the post-commit step before it changes anything. */
  method Post(store: Store, fs: FileStore, session: Option<SessionUser>, form: FormData,
              imageUrls: seq<string>, imageOrders: seq<string>, now: int, moveFails: bool)
    returns (res: Response)
    requires store.Valid()
    modifies store, fs
    ensures store.Valid()
    ensures session.None? ==>
      res == Failure(401, Unauthenticated) && store.State() == old(store.State()) && fs.files == old(fs.files)
    ensures session.Some? && UserIdOf(session.value).None? ==>
      res == Failure(401, NoUserId) && store.State() == old(store.State()) && fs.files == old(fs.files)
    ensures session.Some? && UserIdOf(session.value).Some? ==>
      var id := old(store.nextId);
      var d := Registration(old(store.State()), UserIdOf(session.value).value, form, imageUrls, imageOrders, now);
      && res == Success(id, Registered)
      && (imageUrls == [] || moveFails ==> store.State() == d && fs.files == old(fs.files))
      && (imageUrls != [] && !moveFails ==>
            && fs.files == MoveAll(old(fs.files), imageUrls, id).0
            && store.State() == AfterMove(d, id, MoveAll(old(fs.files), imageUrls, id).1))
  {
    if session.None? {
      return Failure(401, Unauthenticated);
    }
    var userId := UserIdOf(session.value);
    if userId.None? {
      return Failure(401, NoUserId);
    }

    var id := Commit(store, userId.value, form, imageUrls, imageOrders, now);
    if |imageUrls| > 0 && !moveFails {
      MoveAndPatch(store, fs, id, imageUrls);
    }
    res := Success(id, Registered);
  }
}

=== FILE: property_card.dfy ===
/** The display decisions of the property card (components/PropertyCard.tsx):
    the price text by trade type, the Korean labels of the type and status
    codes, and the colour of the status badge. */
module PropertyCard {
  import opened Wrappers
  import opened Text

  /** The columns of a property row the card reads. */
  datatype Card = Card(
    tradeType: string, salePrice: Option<int>, deposit: Option<int>, monthlyRent: Option<int>,
    propertyType: string, status: string)

  /** The decimal digits of `n` in groups of three separated by commas. */
  function Grouped(n: nat): (r: string)
    ensures r != []
  {
    if n < 1000 then NatToString(n)
    else Grouped(n / 1000) + "," + LastThreeDigits(n)
  }

  /** `n.toLocaleString()` for an integer, with comma grouping. */
  function LocaleString(n: int): string {
    if n < 0 then "-" + Grouped(-n) else Grouped(n)
  }

  function WithoutCommas(s: string): (r: string)
    ensures |r| <= |s|
    ensures forall i :: 0 <= i < |r| ==> r[i] != ','
  {
    if s == [] then []
    else if s[|s| - 1] == ',' then WithoutCommas(s[..|s| - 1])
    else WithoutCommas(s[..|s| - 1]) + [s[|s| - 1]]
  }

  lemma WithoutCommasAppend(a: string, b: string)
    ensures WithoutCommas(a + b) == WithoutCommas(a) + WithoutCommas(b)
    decreases |b|
  {
    if b == [] {
      assert a + b == a;
    } else {
      var b' := b[..|b| - 1];
      assert (a + b)[..|a + b| - 1] == a + b';
      assert (a + b)[|a + b| - 1] == b[|b| - 1];
      WithoutCommasAppend(a, b');
    }
  }

  /** Grouping only inserts separators: dropping the commas gives back the
      plain decimal text. */
  lemma {:induction false} GroupedDigits(n: nat)
    ensures WithoutCommas(Grouped(n)) == NatToString(n)
  {
    if n < 1000 {
      NoCommas(NatToString(n));
    } else {
      GroupedDigits(n / 1000);
      var tail := LastThreeDigits(n);
      WithoutCommasAppend(Grouped(n / 1000) + ",", tail);
      WithoutCommasAppend(Grouped(n / 1000), ",");
      NoCommas(tail);
      NatToStringLastThree(n);
    }
  }

  function LastThreeDigits(n: nat): (r: string)
    ensures forall i :: 0 <= i < |r| ==> r[i] != ','
  {
    [DigitChar(n % 1000 / 100), DigitChar(n % 100 / 10), DigitChar(n % 10)]
  }

  /** The decimal text of a number of four or more digits ends with the
      three digits of its remainder by 1000. */
  lemma NatToStringLastThree(n: nat)
    requires n >= 1000
    ensures NatToString(n) == NatToString(n / 1000) + LastThreeDigits(n)
  {
    assert NatToString(n) == NatToString(n / 10) + [DigitChar(n % 10)];
    assert NatToString(n / 10) == NatToString(n / 10 / 10) + [DigitChar(n / 10 % 10)];
    assert NatToString(n / 10 / 10) == NatToString(n / 10 / 10 / 10) + [DigitChar(n / 10 / 10 % 10)];
    assert n / 10 / 10 == n / 100 && n / 10 / 10 / 10 == n / 1000;
    assert n / 10 % 10 == n % 100 / 10 && n / 100 % 10 == n % 1000 / 100;
  }

  lemma {:induction false} NoCommas(s: string)
    requires forall i :: 0 <= i < |s| ==> s[i] != ','
    ensures WithoutCommas(s) == s
  {
    if s != [] {
      NoCommas(s[..|s| - 1]);
    }
  }

  /** A nullable number is truthy when present and not zero. */
  predicate Truthy(n: Option<int>) {
    n.Some? && n.value != 0
  }

  const Unpriced: string := "가격 미정"

  /** `getPriceDisplay`. */
  function PriceText(card: Card): string {
    if card.tradeType == "SALE" && Truthy(card.salePrice) then
      LocaleString(card.salePrice.value) + "만원"
    else if card.tradeType == "JEONSE" && Truthy(card.deposit) then
      "전세 " + LocaleString(card.deposit.value) + "만원"
    else if card.tradeType == "MONTHLY" then
      AmountOrZero(card.deposit) + "/" + AmountOrZero(card.monthlyRent) + "만원"
    else Unpriced
  }

  /** `amount?.toLocaleString() || 0`: a null amount shows as `0`. */
  function AmountOrZero(amount: Option<int>): (r: string)
    ensures amount.None? ==> r == "0"
    ensures amount.Some? ==> r == LocaleString(amount.value)
  {
    if amount.Some? then LocaleString(amount.value) else "0"
  }

  /** The four outcomes of the price text: the sale price, the JEONSE
      deposit, the MONTHLY pair (shown even when both amounts are null), and
      `가격 미정` for everything else. */
  lemma PriceCases(card: Card)
    ensures card.tradeType == "SALE" && Truthy(card.salePrice) ==>
      PriceText(card) == LocaleString(card.salePrice.value) + "만원"
    ensures card.tradeType == "JEONSE" && Truthy(card.deposit) ==>
      PriceText(card) == "전세 " + LocaleString(card.deposit.value) + "만원"
    ensures card.tradeType == "MONTHLY" ==>
      PriceText(card) == AmountOrZero(card.deposit) + "/" + AmountOrZero(card.monthlyRent) + "만원"
    ensures card.tradeType == "MONTHLY" && card.deposit.None? && card.monthlyRent.None? ==>
      PriceText(card) == "0/0만원"
    ensures PriceText(card) == Unpriced <==>
      !(card.tradeType == "SALE" && Truthy(card.salePrice)) &&
      !(card.tradeType == "JEONSE" && Truthy(card.deposit)) &&
      card.tradeType != "MONTHLY"
  {
    if card.tradeType == "MONTHLY" {
      assert PriceText(card) == AmountOrZero(card.deposit) + "/" + AmountOrZero(card.monthlyRent) + "만원";
      assert PriceText(card)[|PriceText(card)| - 1] == '원';
    } else if card.tradeType == "SALE" && Truthy(card.salePrice) {
      var t := LocaleString(card.salePrice.value) + "만원";
      assert t[|t| - 1] == '원';
    } else if card.tradeType == "JEONSE" && Truthy(card.deposit) {
      assert PriceText(card)[0] == '전';
    }
  }

  /** The ten property type codes. */
  const PropertyTypes: seq<string> :=
    ["APARTMENT", "OFFICETEL", "VILLA", "HOUSE", "ONE_ROOM", "TWO_ROOM", "COMMERCIAL", "OFFICE", "FACTORY", "LAND"]

  const TypeLabels: map<string, string> := map[
    "APARTMENT" := "아파트", "OFFICETEL" := "오피스텔", "VILLA" := "빌라", "HOUSE" := "주택",
    "ONE_ROOM" := "원룸", "TWO_ROOM" := "투룸", "COMMERCIAL" := "상가", "OFFICE" := "사무실",
    "FACTORY" := "공장", "LAND" := "토지"]

  const StatusLabels: map<string, string> := map[
    "AVAILABLE" := "판매중", "RESERVED" := "예약중", "SOLD" := "거래완료"]

  /** `labels[code] || code`: every label is non-empty, so the code itself
      is shown exactly when it has no label. */
  function Label(labels: map<string, string>, code: string): string {
    if code in labels && labels[code] != "" then labels[code] else code
  }

  function TypeLabel(propertyType: string): string { Label(TypeLabels, propertyType) }
  function StatusLabel(status: string): string { Label(StatusLabels, status) }

  /** The ten codes have a label each, different from the code, and no
      other code has one. */
  lemma TypeLabelsKnown()
    ensures TypeLabels.Keys == set t | t in PropertyTypes
    ensures forall t :: t in PropertyTypes ==> TypeLabel(t) == TypeLabels[t] != t
    ensures forall t :: t !in PropertyTypes ==> TypeLabel(t) == t
  {
  }

  /** No two types share a label. */
  lemma TypeLabelsDistinct()
    ensures forall t, u :: t in TypeLabels && u in TypeLabels && t != u ==> TypeLabels[t] != TypeLabels[u]
  {
  }

  /** The three status codes have a label each, different from the code,
      and no other status has one. */
  lemma StatusLabelsKnown()
    ensures forall s :: s in StatusLabels ==> StatusLabel(s) == StatusLabels[s] != s
    ensures forall s :: s !in StatusLabels ==> StatusLabel(s) == s
  {
  }

  datatype Badge = Success | Warning | Danger

  /** The status badge colour. */
  function StatusBadge(status: string): (b: Badge)
    ensures b == Success <==> status == "AVAILABLE"
    ensures b == Warning <==> status == "RESERVED"
    ensures b == Danger <==> status != "AVAILABLE" && status != "RESERVED"
  {
    if status == "AVAILABLE" then Success else if status == "RESERVED" then Warning else Danger
  }
}

=== FILE: property_store.dfy ===
/** The property tables and the server actions that write them
    (actions/property.ts): a base `Property` row, four extension tables
    selected by the `propertyType` discriminator, an agent row and image rows,
    all keyed by the property id. Each action runs in one transaction, so it
    either applies all of its writes or none. */
module PropertyStore {
  import opened Wrappers
  import opened Numbers
  import opened Forms

  /** The base-row columns that a form submission determines. A text column
      is `None` when the field is missing from the form (`get` answers null). */
  datatype Listing = Listing(
    title: Option<string>, tradeType: Option<string>,
    salePrice: Option<JsNumber>, deposit: Option<JsNumber>, monthlyRent: Option<JsNumber>,
    address: Option<string>, addressDetail: Option<string>,
    exclusiveArea: JsNumber, supplyArea: Option<JsNumber>,
    propertyType: Option<string>,
    floor: Option<JsNumber>, totalFloors: Option<JsNumber>,
    rooms: real, bathrooms: real,
    direction: Option<string>, buildYear: Option<JsNumber>,
    hasElevator: bool, parkingSpaces: real,
    heatingType: Option<string>, availableFrom: Option<string>,
    maintenanceFee: Option<JsNumber>, maintenanceIncludes: Option<string>,
    summary: Option<string>, description: Option<string>,
    approvalNo: Option<string>, confirmDate: Option<string>)

  datatype PropertyRow = PropertyRow(listing: Listing, status: Option<string>, userId: string, createdAt: int)

  datatype CommercialInfo = CommercialInfo(
    premiumFee: Option<JsNumber>, businessRestrictions: Option<string>,
    recommendedBusinesses: Option<string>, monthlyRevenue: Option<JsNumber>,
    isOperating: bool, isTransfer: bool)

  datatype LandInfo = LandInfo(
    landCategory: Option<string>, zoning: Option<string>, roadFacing: Option<string>,
    topography: Option<string>, buildingCoverageRatio: Option<JsNumber>, floorAreaRatio: Option<JsNumber>)

  datatype OfficeInfo = OfficeInfo(
    meetingRooms: Option<JsNumber>, deskCapacity: Option<JsNumber>, internetSpeed: Option<string>,
    hasSecurity: bool, is24HourAccess: bool)

  datatype FactoryInfo = FactoryInfo(
    ceilingHeight: Option<JsNumber>, electricCapacity: Option<JsNumber>, waterCapacity: Option<JsNumber>,
    hasCargoElevator: bool, hasCrane: bool, hasEnvironmentalPermit: bool)

  datatype AgentInfo = AgentInfo(officeName: Option<string>, phone: Option<string>, registrationNo: Option<string>)

  datatype ImageRow = ImageRow(propertyId: nat, url: string, order: real, isMain: bool)

  /** A snapshot of every table, with the next values of the two
      auto-increment keys. Extension and agent tables are keyed by property id. */
  datatype Db = Db(
    properties: map<nat, PropertyRow>,
    commercial: map<nat, CommercialInfo>, land: map<nat, LandInfo>,
    office: map<nat, OfficeInfo>, factory: map<nat, FactoryInfo>,
    agents: map<nat, AgentInfo>,
    images: map<nat, ImageRow>,
    nextId: nat, nextImageId: nat)

  const Available: string := "AVAILABLE"
  const Commercial: string := "COMMERCIAL"
  const Land: string := "LAND"
  const Office: string := "OFFICE"
  const Factory: string := "FACTORY"
  const DeleteFailed: string := "매물 삭제에 실패했습니다."
  const RecordNotFound: string := "Record to update not found."

  /** Referential integrity: every dependent row belongs to an existing
      property, and every key is below its auto-increment counter. */
  predicate ValidDb(db: Db) {
    && (forall id :: id in db.properties ==> id < db.nextId)
    && db.commercial.Keys <= db.properties.Keys
    && db.land.Keys <= db.properties.Keys
    && db.office.Keys <= db.properties.Keys
    && db.factory.Keys <= db.properties.Keys
    && db.agents.Keys <= db.properties.Keys
    && (forall i :: i in db.images ==> i < db.nextImageId && db.images[i].propertyId in db.properties)
  }

  /** The base-row columns of a submission, with the coercions of the
      actions: optional numbers become null when the field is empty, `rooms`
      and `bathrooms` fall back to 1 and `parkingSpaces` to 0 when the number
      is 0 or NaN, and flags hold exactly when the field is the text `true`. */
  function ListingOf(form: FormData): (l: Listing)
    ensures l.propertyType == Get(form, "propertyType")
    ensures l.exclusiveArea == NumberOfField(Get(form, "exclusiveArea"))
    ensures l.salePrice.None? <==> !Present(form, "salePrice")
    ensures l.salePrice == OptionalNumber(form, "salePrice")
    ensures l.deposit == OptionalNumber(form, "deposit")
    ensures l.monthlyRent == OptionalNumber(form, "monthlyRent")
    ensures l.supplyArea == OptionalNumber(form, "supplyArea")
    ensures l.floor == OptionalNumber(form, "floor") && l.totalFloors == OptionalNumber(form, "totalFloors")
    ensures l.buildYear == OptionalNumber(form, "buildYear")
    ensures l.maintenanceFee == OptionalNumber(form, "maintenanceFee")
    ensures l.availableFrom == OptionalDate(form, "availableFrom")
    ensures l.confirmDate == OptionalDate(form, "confirmDate")
    ensures !Truthy(NumberOfField(Get(form, "rooms"))) ==> l.rooms == 1.0
    ensures !Truthy(NumberOfField(Get(form, "bathrooms"))) ==> l.bathrooms == 1.0
    ensures !Truthy(NumberOfField(Get(form, "parkingSpaces"))) ==> l.parkingSpaces == 0.0
    ensures l.rooms != 0.0 && l.bathrooms != 0.0
    ensures l.hasElevator <==> Get(form, "hasElevator") == Some("true")
  {
    Listing(
      Get(form, "title"), Get(form, "tradeType"),
      OptionalNumber(form, "salePrice"), OptionalNumber(form, "deposit"), OptionalNumber(form, "monthlyRent"),
      Get(form, "address"), Get(form, "addressDetail"),
      NumberOfField(Get(form, "exclusiveArea")), OptionalNumber(form, "supplyArea"),
      Get(form, "propertyType"),
      OptionalNumber(form, "floor"), OptionalNumber(form, "totalFloors"),
      NumberOr(form, "rooms", 1.0), NumberOr(form, "bathrooms", 1.0),
      Get(form, "direction"), OptionalNumber(form, "buildYear"),
      Flag(form, "hasElevator"), NumberOr(form, "parkingSpaces", 0.0),
      Get(form, "heatingType"), OptionalDate(form, "availableFrom"),
      OptionalNumber(form, "maintenanceFee"), Get(form, "maintenanceIncludes"),
      Get(form, "summary"), Get(form, "description"),
      Get(form, "approvalNo"), OptionalDate(form, "confirmDate"))
  }

  function CommercialOf(form: FormData): CommercialInfo {
    CommercialInfo(
      OptionalNumber(form, "premiumFee"), Get(form, "businessRestrictions"),
      Get(form, "recommendedBusinesses"), OptionalNumber(form, "monthlyRevenue"),
      Flag(form, "isOperating"), Flag(form, "isTransfer"))
  }

  function LandOf(form: FormData): LandInfo {
    LandInfo(
      Get(form, "landCategory"), Get(form, "zoning"), Get(form, "roadFacing"),
      Get(form, "topography"), OptionalNumber(form, "buildingCoverageRatio"),
      OptionalNumber(form, "floorAreaRatio"))
  }

  function OfficeOf(form: FormData): OfficeInfo {
    OfficeInfo(
      OptionalNumber(form, "meetingRooms"), OptionalNumber(form, "deskCapacity"),
      Get(form, "internetSpeed"), Flag(form, "hasSecurity"), Flag(form, "is24HourAccess"))
  }

  function FactoryOf(form: FormData): FactoryInfo {
    FactoryInfo(
      OptionalNumber(form, "ceilingHeight"), OptionalNumber(form, "electricCapacity"),
      OptionalNumber(form, "waterCapacity"), Flag(form, "hasCargoElevator"),
      Flag(form, "hasCrane"), Flag(form, "hasEnvironmentalPermit"))
  }

  /** The agent columns; the phone is read from the field `agentPhone`. */
  function AgentOf(form: FormData): (a: AgentInfo)
    ensures a.phone == Get(form, "agentPhone")
  {
    AgentInfo(Get(form, "officeName"), Get(form, "agentPhone"), Get(form, "registrationNo"))
  }

  /** The extension row a submission asks for, chosen by its `propertyType`. */
  datatype Extension =
    | NoExtension
    | CommercialRow(commercialInfo: CommercialInfo)
    | LandRow(landInfo: LandInfo)
    | OfficeRow(officeInfo: OfficeInfo)
    | FactoryRow(factoryInfo: FactoryInfo)

  /** The four `if (propertyType === ...)` branches: only COMMERCIAL, LAND,
      OFFICE and FACTORY have an extension table. */
  function ExtensionOf(form: FormData): (e: Extension)
    ensures e.CommercialRow? <==> Get(form, "propertyType") == Some(Commercial)
    ensures e.LandRow? <==> Get(form, "propertyType") == Some(Land)
    ensures e.OfficeRow? <==> Get(form, "propertyType") == Some(Office)
    ensures e.FactoryRow? <==> Get(form, "propertyType") == Some(Factory)
    ensures e.CommercialRow? ==> e.commercialInfo == CommercialOf(form)
    ensures e.LandRow? ==> e.landInfo == LandOf(form)
    ensures e.OfficeRow? ==> e.officeInfo == OfficeOf(form)
    ensures e.FactoryRow? ==> e.factoryInfo == FactoryOf(form)
  {
    var t := Get(form, "propertyType");
    if t == Some(Commercial) then CommercialRow(CommercialOf(form))
    else if t == Some(Land) then LandRow(LandOf(form))
    else if t == Some(Office) then OfficeRow(OfficeOf(form))
    else if t == Some(Factory) then FactoryRow(FactoryOf(form))
    else NoExtension
  }

  /** Create-or-update of the base row `id`. */
  function WriteBase(db: Db, id: nat, row: PropertyRow): Db {
    db.(properties := db.properties[id := row])
  }

  /** Create-or-update of the extension row of property `id`; the tables of
      the other types are not written. */
  function WriteExtension(db: Db, id: nat, e: Extension): Db {
    match e
    case NoExtension => db
    case CommercialRow(c) => db.(commercial := db.commercial[id := c])
    case LandRow(l) => db.(land := db.land[id := l])
    case OfficeRow(o) => db.(office := db.office[id := o])
    case FactoryRow(f) => db.(factory := db.factory[id := f])
  }

  /** Create-or-update of the agent row of property `id`, when there is one. */
  function WriteAgent(db: Db, id: nat, agent: Option<AgentInfo>): Db {
    match agent
    case None => db
    case Some(a) => db.(agents := db.agents[id := a])
  }

  /** A transaction that inserts a base row under the next id, then its
      extension row and its agent row. */
  function Inserted(db: Db, row: PropertyRow, e: Extension, agent: Option<AgentInfo>): Db {
    var id := db.nextId;
    WriteAgent(WriteExtension(WriteBase(db, id, row).(nextId := id + 1), id, e), id, agent)
  }

  /** The tables after `createProperty` commits: a fresh base row with status
      AVAILABLE owned by the session user, the extension row of its type, and
      an agent row. */
  function Created(db: Db, userId: string, form: FormData, now: int): Db {
    Inserted(db, PropertyRow(ListingOf(form), Some(Available), userId, now), ExtensionOf(form), Some(AgentOf(form)))
  }

  /** The base row after an update: the form's columns and status; the owner
      and the creation time stay. */
  function UpdatedRow(row: PropertyRow, form: FormData): PropertyRow {
    row.(listing := ListingOf(form), status := Get(form, "status"))
  }

  /** The tables after `updateProperty(id, form)` commits: the base row takes
      the form's columns and status, the extension row of the form's type and
      the agent row are upserted. Upsert writes the same columns whether it
      creates or updates. */
  function Updated(db: Db, id: nat, form: FormData): Db
    requires id in db.properties
  {
    var d := WriteBase(db, id, UpdatedRow(db.properties[id], form));
    WriteAgent(WriteExtension(d, id, ExtensionOf(form)), id, Some(AgentOf(form)))
  }

  /** The tables after the base row `id` is deleted and the delete cascades
      to its extension, agent and image rows. */
  function Deleted(db: Db, id: nat): Db {
    db.(
      properties := db.properties - {id},
      commercial := db.commercial - {id},
      land := db.land - {id},
      office := db.office - {id},
      factory := db.factory - {id},
      agents := db.agents - {id},
      images := map i | i in db.images && db.images[i].propertyId != id :: db.images[i])
  }

  /** The ids `base`, ..., `base + n - 1`. */
  function IdRange(base: nat, n: nat): set<nat> {
    set k: nat | k < base + n && InRange(base, n, k)
  }

  /** `k` is one of the ids `base`, ..., `base + n - 1`. */
  predicate InRange(base: nat, n: nat, k: nat) {
    base <= k < base + n
  }

  /** `createMany` on the image table: `rows[k]` goes under the id `base + k`. */
  function AddImages(images: map<nat, ImageRow>, base: nat, rows: seq<ImageRow>): (r: map<nat, ImageRow>)
    ensures r.Keys == images.Keys + IdRange(base, |rows|)
    ensures forall i :: i in IdRange(base, |rows|) ==> r[i] == rows[i - base]
    ensures forall i :: i in images && !(base <= i < base + |rows|) ==> r[i] == images[i]
  {
    map i | i in images.Keys + IdRange(base, |rows|) ::
      if base <= i < base + |rows| then rows[i - base] else images[i]
  }

  /** Writing an extension row leaves the base, agent and image tables alone. */
  lemma WriteExtensionKeeps(db: Db, id: nat, e: Extension)
    ensures var d := WriteExtension(db, id, e);
      && d.properties == db.properties && d.agents == db.agents && d.images == db.images
      && d.nextId == db.nextId && d.nextImageId == db.nextImageId
  {
    match e
    case NoExtension =>
    case CommercialRow(c) =>
    case LandRow(l) =>
    case OfficeRow(o) =>
    case FactoryRow(f) =>
  }

  /** Writing an extension row adds or replaces the row of `id` in the table
      of its type and in no other table. */
  lemma WriteExtensionTables(db: Db, id: nat, e: Extension)
    ensures var d := WriteExtension(db, id, e);
      && (e.CommercialRow? ==> d.commercial == db.commercial[id := e.commercialInfo])
      && (e.LandRow? ==> d.land == db.land[id := e.landInfo])
      && (e.OfficeRow? ==> d.office == db.office[id := e.officeInfo])
      && (e.FactoryRow? ==> d.factory == db.factory[id := e.factoryInfo])
      && (!e.CommercialRow? ==> d.commercial == db.commercial)
      && (!e.LandRow? ==> d.land == db.land)
      && (!e.OfficeRow? ==> d.office == db.office)
      && (!e.FactoryRow? ==> d.factory == db.factory)
  {
    match e
    case NoExtension =>
    case CommercialRow(c) =>
    case LandRow(l) =>
    case OfficeRow(o) =>
    case FactoryRow(f) =>
  }

  /** Writing an extension row adds no key other than `id`. */
  lemma WriteExtensionKeys(db: Db, id: nat, e: Extension)
    ensures var d := WriteExtension(db, id, e);
      && d.commercial.Keys <= db.commercial.Keys + {id}
      && d.land.Keys <= db.land.Keys + {id}
      && d.office.Keys <= db.office.Keys + {id}
      && d.factory.Keys <= db.factory.Keys + {id}
  {
    match e
    case NoExtension =>
    case CommercialRow(c) =>
    case LandRow(l) =>
    case OfficeRow(o) =>
    case FactoryRow(f) =>
  }

  lemma WriteExtensionTwice(db: Db, id: nat, e: Extension)
    ensures WriteExtension(WriteExtension(db, id, e), id, e) == WriteExtension(db, id, e)
  {
    match e
    case NoExtension =>
    case CommercialRow(c) => assert db.commercial[id := c][id := c] == db.commercial[id := c];
    case LandRow(l) => assert db.land[id := l][id := l] == db.land[id := l];
    case OfficeRow(o) => assert db.office[id := o][id := o] == db.office[id := o];
    case FactoryRow(f) => assert db.factory[id := f][id := f] == db.factory[id := f];
  }

  lemma WriteAgentTwice(db: Db, id: nat, a: Option<AgentInfo>)
    ensures WriteAgent(WriteAgent(db, id, a), id, a) == WriteAgent(db, id, a)
  {
    match a
    case None =>
    case Some(v) => assert db.agents[id := v][id := v] == db.agents[id := v];
  }

  /** The agent write and the extension write touch different tables. */
  lemma WriteCommute(db: Db, id: nat, e: Extension, a: Option<AgentInfo>)
    ensures WriteExtension(WriteAgent(db, id, a), id, e) == WriteAgent(WriteExtension(db, id, e), id, a)
  {
    match e
    case NoExtension =>
    case CommercialRow(c) =>
    case LandRow(l) =>
    case OfficeRow(o) =>
    case FactoryRow(f) =>
  }

  /** Inserting under the next id adds exactly one base row, at most one
      extension row and at most one agent row, all under that id, with the
      given values; every other row of every table is kept. */
  lemma {:induction false} InsertedRows(db: Db, row: PropertyRow, e: Extension, agent: Option<AgentInfo>)
    requires ValidDb(db)
    ensures var d := Inserted(db, row, e, agent); var id := db.nextId;
      && id !in db.properties
      && d.properties == db.properties[id := row]
      && d.nextId == id + 1
      && d.images == db.images && d.nextImageId == db.nextImageId
      && (id in d.commercial <==> e.CommercialRow?)
      && (id in d.land <==> e.LandRow?)
      && (id in d.office <==> e.OfficeRow?)
      && (id in d.factory <==> e.FactoryRow?)
      && (id in d.agents <==> agent.Some?)
      && (agent.Some? ==> d.agents[id] == agent.value)
      && d.commercial == (if e.CommercialRow? then db.commercial[id := e.commercialInfo] else db.commercial)
      && d.land == (if e.LandRow? then db.land[id := e.landInfo] else db.land)
      && d.office == (if e.OfficeRow? then db.office[id := e.officeInfo] else db.office)
      && d.factory == (if e.FactoryRow? then db.factory[id := e.factoryInfo] else db.factory)
      && d.agents == (if agent.Some? then db.agents[id := agent.value] else db.agents)
  {
    var id := db.nextId;
    assert id !in db.properties;
    var d0 := WriteBase(db, id, row).(nextId := id + 1);
    WriteExtensionKeeps(d0, id, e);
    WriteExtensionTables(d0, id, e);
  }

  /** Integrity survives writes that add at most the base row `id` below
      the id counter and dependent rows under `id` only. */
  lemma ValidAfterWrites(db: Db, d: Db, id: nat)
    requires ValidDb(db)
    requires d.properties.Keys == db.properties.Keys + {id} && id < d.nextId && db.nextId <= d.nextId
    requires d.commercial.Keys <= db.commercial.Keys + {id}
    requires d.land.Keys <= db.land.Keys + {id}
    requires d.office.Keys <= db.office.Keys + {id}
    requires d.factory.Keys <= db.factory.Keys + {id}
    requires d.agents.Keys <= db.agents.Keys + {id}
    requires d.images == db.images && d.nextImageId == db.nextImageId
    ensures ValidDb(d)
  {
  }

  lemma {:induction false} InsertKeepsValid(db: Db, row: PropertyRow, e: Extension, agent: Option<AgentInfo>)
    requires ValidDb(db)
    ensures ValidDb(Inserted(db, row, e, agent))
  {
    var id := db.nextId;
    var d0 := WriteBase(db, id, row).(nextId := id + 1);
    WriteExtensionKeeps(d0, id, e);
    WriteExtensionTables(d0, id, e);
    ValidAfterWrites(db, Inserted(db, row, e, agent), id);
  }

  /** A created property gets exactly the extension row its type selects,
      and none in the other three tables; the new base row is AVAILABLE and
      owned by the session user; an agent row is always added and takes its
      phone from `agentPhone`; no image row is added. */
  lemma {:induction false} CreateRows(db: Db, userId: string, form: FormData, now: int)
    requires ValidDb(db)
    ensures var d := Created(db, userId, form, now); var id := db.nextId; var t := Get(form, "propertyType");
      && ValidDb(d)
      && id !in db.properties
      && d.properties == db.properties[id := PropertyRow(ListingOf(form), Some(Available), userId, now)]
      && (id in d.commercial <==> t == Some(Commercial))
      && (id in d.land <==> t == Some(Land))
      && (id in d.office <==> t == Some(Office))
      && (id in d.factory <==> t == Some(Factory))
      && id in d.agents && d.agents[id].phone == Get(form, "agentPhone")
      && d.images == db.images
  {
    var row := PropertyRow(ListingOf(form), Some(Available), userId, now);
    InsertedRows(db, row, ExtensionOf(form), Some(AgentOf(form)));
    InsertKeepsValid(db, row, ExtensionOf(form), Some(AgentOf(form)));
  }

  /** Repeating an update changes nothing more: the second run writes the
      same columns over the same keys. */
  lemma {:induction false} UpdateIdempotent(db: Db, id: nat, form: FormData)
    requires id in db.properties
    ensures id in Updated(db, id, form).properties
    ensures Updated(Updated(db, id, form), id, form) == Updated(db, id, form)
  {
    var row := UpdatedRow(db.properties[id], form);
    var x := WriteBase(db, id, row);
    var e, a := ExtensionOf(form), Some(AgentOf(form));
    var y := WriteExtension(x, id, e);
    var d := WriteAgent(y, id, a);
    WriteExtensionKeeps(x, id, e);
    assert d.properties == x.properties;
    assert UpdatedRow(d.properties[id], form) == row;
    assert d.properties[id := row] == d.properties;
    assert WriteBase(d, id, row) == d;
    WriteCommute(y, id, e, a);
    WriteExtensionTwice(x, id, e);
    WriteAgentTwice(y, id, a);
  }

  /** Update keeps the owner and creation time, leaves every other property
      and every image untouched, and never removes an extension row: the
      tables of other types keep whatever row they had for `id`. */
  lemma {:induction false} UpdateFrame(db: Db, id: nat, form: FormData)
    requires id in db.properties
    ensures var d := Updated(db, id, form); var t := Get(form, "propertyType");
      && d.properties == db.properties[id := UpdatedRow(db.properties[id], form)]
      && d.properties[id].userId == db.properties[id].userId
      && d.properties[id].createdAt == db.properties[id].createdAt
      && d.properties[id].status == Get(form, "status")
      && d.images == db.images
      && (t != Some(Commercial) ==> d.commercial == db.commercial)
      && (t != Some(Land) ==> d.land == db.land)
      && (t != Some(Office) ==> d.office == db.office)
      && (t != Some(Factory) ==> d.factory == db.factory)
      && d.agents == db.agents[id := AgentOf(form)]
  {
    var x := WriteBase(db, id, UpdatedRow(db.properties[id], form));
    WriteExtensionKeeps(x, id, ExtensionOf(form));
    WriteExtensionTables(x, id, ExtensionOf(form));
  }

  /** Changing a commercial property into a land property leaves a stale
      commercial row next to the new land row. */
  lemma {:induction false} StaleExtensionAfterTypeChange(db: Db, id: nat, form: FormData)
    requires id in db.properties && id in db.commercial
    requires Get(form, "propertyType") == Some(Land)
    ensures var d := Updated(db, id, form);
      id in d.land && id in d.commercial && d.commercial[id] == db.commercial[id]
  {
    var x := WriteBase(db, id, UpdatedRow(db.properties[id], form));
    WriteExtensionKeeps(x, id, ExtensionOf(form));
    WriteExtensionTables(x, id, ExtensionOf(form));
  }

  /** The keys an update may add: only `id`, in any table. */
  lemma {:induction false} UpdateKeys(db: Db, id: nat, form: FormData)
    requires id in db.properties
    ensures var d := Updated(db, id, form);
      && d.properties.Keys == db.properties.Keys + {id}
      && d.nextId == db.nextId
      && d.commercial.Keys <= db.commercial.Keys + {id}
      && d.land.Keys <= db.land.Keys + {id}
      && d.office.Keys <= db.office.Keys + {id}
      && d.factory.Keys <= db.factory.Keys + {id}
      && d.agents.Keys <= db.agents.Keys + {id}
      && d.images == db.images && d.nextImageId == db.nextImageId
  {
    var x := WriteBase(db, id, UpdatedRow(db.properties[id], form));
    WriteExtensionKeeps(x, id, ExtensionOf(form));
    WriteExtensionKeys(x, id, ExtensionOf(form));
  }

  lemma {:induction false} UpdateKeepsValid(db: Db, id: nat, form: FormData)
    requires ValidDb(db) && id in db.properties
    ensures ValidDb(Updated(db, id, form))
  {
    UpdateKeys(db, id, form);
    ValidAfterWrites(db, Updated(db, id, form), id);
  }

  /** After a delete no table holds a row for the property, and every row of
      every other property is kept. */
  lemma DeleteCascades(db: Db, id: nat)
    ensures var d := Deleted(db, id);
      && id !in d.properties && id !in d.commercial && id !in d.land
      && id !in d.office && id !in d.factory && id !in d.agents
      && (forall i :: i in d.images ==> d.images[i].propertyId != id)
      && (forall i :: i in db.images && db.images[i].propertyId != id ==> i in d.images && d.images[i] == db.images[i])
      && (forall k :: k in db.properties && k != id ==> k in d.properties && d.properties[k] == db.properties[k])
  {
  }

  lemma DeleteKeepsValid(db: Db, id: nat)
    requires ValidDb(db)
    ensures ValidDb(Deleted(db, id))
  {
  }

  /** Removing a key that was absent before a possible write at that key
      gives back the map from before the write. */
  lemma RemoveAfterWrite<V>(m: map<nat, V>, m': map<nat, V>, id: nat)
    requires id !in m
    requires WrittenAt(m, m', id)
    ensures m' - {id} == m
  {
    if m' != m {
      assert m[id := m'[id]] - {id} == m;
    }
  }

  /** A map written at most at `id`. */
  ghost predicate WrittenAt<V>(m: map<nat, V>, m': map<nat, V>, id: nat) {
    m' == m || (id in m' && m' == m[id := m'[id]])
  }

  /** The insert writes each table at the new id at most. */
  lemma InsertWritesAt(db: Db, row: PropertyRow, e: Extension, agent: Option<AgentInfo>)
    ensures var d := Inserted(db, row, e, agent); var id := db.nextId;
      && WrittenAt(db.properties, d.properties, id)
      && WrittenAt(db.commercial, d.commercial, id)
      && WrittenAt(db.land, d.land, id)
      && WrittenAt(db.office, d.office, id)
      && WrittenAt(db.factory, d.factory, id)
      && WrittenAt(db.agents, d.agents, id)
      && d.images == db.images && d.nextId == id + 1 && d.nextImageId == db.nextImageId
  {
    var id := db.nextId;
    var d0 := WriteBase(db, id, row).(nextId := id + 1);
    WriteExtensionKeeps(d0, id, e);
    WriteExtensionTables(d0, id, e);
  }

  /** Deleting a property right after inserting it restores every table;
      only the id counter has moved on. */
  lemma {:induction false} DeleteUndoesInsert(db: Db, row: PropertyRow, e: Extension, agent: Option<AgentInfo>)
    requires ValidDb(db)
    ensures Deleted(Inserted(db, row, e, agent), db.nextId) == db.(nextId := db.nextId + 1)
  {
    var id := db.nextId;
    var d := Inserted(db, row, e, agent);
    assert ValidDb(db) ==> id !in db.properties;
    InsertWritesAt(db, row, e, agent);
    RemoveAfterWrite(db.properties, d.properties, id);
    RemoveAfterWrite(db.commercial, d.commercial, id);
    RemoveAfterWrite(db.land, d.land, id);
    RemoveAfterWrite(db.office, d.office, id);
    RemoveAfterWrite(db.factory, d.factory, id);
    RemoveAfterWrite(db.agents, d.agents, id);
    assert Deleted(d, id).images == db.images;
  }

  /** Rewriting an existing base row keeps integrity. */
  lemma WriteBaseKeepsValid(db: Db, id: nat, row: PropertyRow)
    requires ValidDb(db) && id in db.properties
    ensures ValidDb(WriteBase(db, id, row))
  {
  }

  /** An extension row for an existing property keeps integrity. */
  lemma WriteExtensionKeepsValid(db: Db, id: nat, e: Extension)
    requires ValidDb(db) && id in db.properties
    ensures ValidDb(WriteExtension(db, id, e))
  {
    WriteExtensionKeeps(db, id, e);
    WriteExtensionKeys(db, id, e);
  }

  /** Image rows of existing properties keep integrity. */
  lemma AddImagesKeepsValid(db: Db, rows: seq<ImageRow>)
    requires ValidDb(db)
    requires forall k :: 0 <= k < |rows| ==> rows[k].propertyId in db.properties
    ensures ValidDb(db.(images := AddImages(db.images, db.nextImageId, rows), nextImageId := db.nextImageId + |rows|))
  {
    var base := db.nextImageId;
    var added := AddImages(db.images, base, rows);
    forall i | i in added ensures i < base + |rows| && added[i].propertyId in db.properties {
      if base <= i < base + |rows| {
        assert i in IdRange(base, |rows|);
        assert added[i] == rows[i - base];
      } else {
        assert i in db.images && added[i] == db.images[i];
      }
    }
  }

  /** The database: one map per table, updated in place by the actions. */
  class Store {
    var properties: map<nat, PropertyRow>
    var commercial: map<nat, CommercialInfo>
    var land: map<nat, LandInfo>
    var office: map<nat, OfficeInfo>
    var factory: map<nat, FactoryInfo>
    var agents: map<nat, AgentInfo>
    var images: map<nat, ImageRow>
    var nextId: nat
    var nextImageId: nat

    function State(): Db
      reads this
    {
      Db(properties, commercial, land, office, factory, agents, images, nextId, nextImageId)
    }

    predicate Valid()
      reads this
    {
      ValidDb(State())
    }

    constructor()
      ensures State() == Db(map[], map[], map[], map[], map[], map[], map[], 1, 1)
      ensures Valid()
    {
      properties, commercial, land, office, factory := map[], map[], map[], map[], map[];
      agents, images := map[], map[];
      nextId, nextImageId := 1, 1;
    }

    /** `tx.property.create`: the row goes under the next id. */
    method InsertBase(row: PropertyRow) returns (id: nat)
      requires Valid()
      modifies this
      ensures id == old(nextId) && id !in old(properties)
      ensures State() == WriteBase(old(State()), id, row).(nextId := id + 1)
      ensures Valid()
    {
      id := nextId;
      properties := properties[id := row];
      nextId := nextId + 1;
    }

    /** The create or upsert of the extension table the row belongs to. */
    method WriteExtensionRow(id: nat, e: Extension)
      requires Valid() && id in properties
      modifies this
      ensures State() == WriteExtension(old(State()), id, e)
      ensures Valid()
    {
      WriteExtensionKeepsValid(State(), id, e);
      match e
      case NoExtension =>
      case CommercialRow(c) => commercial := commercial[id := c];
      case LandRow(l) => land := land[id := l];
      case OfficeRow(o) => office := office[id := o];
      case FactoryRow(f) => factory := factory[id := f];
    }

    /** The create or upsert of the agent row. */
    method WriteAgentRow(id: nat, agent: AgentInfo)
      requires Valid() && id in properties
      modifies this
      ensures State() == WriteAgent(old(State()), id, Some(agent))
      ensures Valid()
    {
      agents := agents[id := agent];
    }

    /** `tx.image.createMany`: the rows take the next image ids, in order. */
    method InsertImages(rows: seq<ImageRow>)
      requires Valid() && forall k :: 0 <= k < |rows| ==> rows[k].propertyId in properties
      modifies this
      ensures State() == old(State()).(images := AddImages(old(images), old(nextImageId), rows),
                                       nextImageId := old(nextImageId) + |rows|)
      ensures Valid()
    {
      AddImagesKeepsValid(State(), rows);
      images := AddImages(images, nextImageId, rows);
      nextImageId := nextImageId + |rows|;
    }

    /** `prisma.image.update`: sets the URL of an existing image row. */
    method UpdateImageUrl(imageId: nat, url: string)
      requires Valid() && imageId in images
      modifies this
      ensures State() == old(State()).(images := old(images)[imageId := old(images)[imageId].(url := url)])
      ensures Valid()
    {
      images := images[imageId := images[imageId].(url := url)];
    }

    /** One insert transaction: the base row under the next id, then the
        extension row and the agent row when there are ones. */
    method Insert(row: PropertyRow, e: Extension, agent: Option<AgentInfo>) returns (id: nat)
      requires Valid()
      modifies this
      ensures id == old(nextId)
      ensures State() == Inserted(old(State()), row, e, agent)
      ensures Valid()
    {
      ghost var s0 := State();
      id := InsertBase(row);
      ghost var s1 := State();
      WriteExtensionRow(id, e);
      assert State() == WriteExtension(s1, id, e);
      if agent.Some? {
        WriteAgentRow(id, agent.value);
      }
    }

    /** One update transaction: the base row `id` is rewritten, then the
        extension row and the agent row are upserted. */
    method Rewrite(id: nat, row: PropertyRow, e: Extension, agent: AgentInfo)
      requires Valid() && id in properties
      modifies this
      ensures State() == WriteAgent(WriteExtension(WriteBase(old(State()), id, row), id, e), id, Some(agent))
      ensures Valid()
    {
      ghost var s0 := State();
      properties := properties[id := row];
      assert State() == WriteBase(s0, id, row);
      WriteBaseKeepsValid(s0, id, row);
      WriteExtensionRow(id, e);
      WriteAgentRow(id, agent);
    }

    /** `createProperty`: refused before any write without a session user
        id; otherwise the base row, the extension row selected by the type
        and the agent row are written in one transaction. */
    method CreateProperty(session: Option<SessionUser>, form: FormData, now: int) returns (r: Result<nat>)
      requires Valid()
      modifies this
      ensures Valid()
      ensures !HasUserId(session) ==> r == Err(Unauthenticated) && State() == old(State())
      ensures HasUserId(session) ==>
        r == Ok(old(nextId)) && State() == Created(old(State()), session.value.id, form, now)
    {
      if !HasUserId(session) {
        return Err(Unauthenticated);
      }
      var row := PropertyRow(ListingOf(form), Some(Available), session.value.id, now);
      var ext := ExtensionOf(form);
      var agent := AgentOf(form);
      var id := Insert(row, ext, Some(agent));
      r := Ok(id);
    }

    /** `updateProperty`: a missing id makes the base-row update fail and the
        transaction roll back; otherwise the base row, the extension row of
        the form's type and the agent row are written. */
    method UpdateProperty(id: nat, form: FormData) returns (r: Result<()>)
      requires Valid()
      modifies this
      ensures Valid()
      ensures id !in old(properties) ==> r == Err(RecordNotFound) && State() == old(State())
      ensures id in old(properties) ==> r == Ok(()) && State() == Updated(old(State()), id, form)
    {
      if id !in properties {
        return Err(RecordNotFound);
      }
      Rewrite(id, UpdatedRow(properties[id], form), ExtensionOf(form), AgentOf(form));
      r := Ok(());
    }

    /** `deleteProperty`: a missing id fails with the delete error; otherwise
        the base row goes and the delete cascades. */
    method DeleteProperty(id: nat) returns (r: Result<()>)
      requires Valid()
      modifies this
      ensures Valid()
      ensures id !in old(properties) ==> r == Err(DeleteFailed) && State() == old(State())
      ensures id in old(properties) ==> r == Ok(()) && State() == Deleted(old(State()), id)
    {
      if id !in properties {
        return Err(DeleteFailed);
      }
      ghost var s0 := State();
      DeleteKeepsValid(s0, id);
      var d := Deleted(State(), id);
      properties, commercial, land, office, factory := d.properties, d.commercial, d.land, d.office, d.factory;
      agents, images := d.agents, d.images;
      assert State() == d;
      r := Ok(());
    }
  }
}

=== FILE: search_bar.dfy ===
/** The search box of the property list (components/PropertySearchBar.tsx):
    submitting sets or removes `q` and always drops `page`; clearing drops
    both. Either way the browser goes to the list page with the edited
    query. */
module PropertySearchBar {
  import opened Wrappers
  import opened Text
  import opened QueryParams

  /** The query after a submit of `term`. */
  function SearchQuery(current: seq<Pair>, term: string): seq<Pair> {
    var t := Trim(term);
    Deleted(if t != "" then Set(current, "q", t) else Deleted(current, "q"), "page")
  }

  /** The query after a clear. */
  function ClearQuery(current: seq<Pair>): seq<Pair> {
    Deleted(Deleted(current, "q"), "page")
  }

  /** A submit puts the trimmed term in `q` when it is not blank and removes
      `q` otherwise, removes `page`, and keeps every other parameter. */
  lemma SearchQueryReads(current: seq<Pair>, term: string, other: string)
    ensures Trim(term) != "" ==> Get(SearchQuery(current, term), "q") == Some(Trim(term))
    ensures Trim(term) == "" ==> Get(SearchQuery(current, term), "q").None?
    ensures Get(SearchQuery(current, term), "page").None?
    ensures other != "q" && other != "page" ==> Get(SearchQuery(current, term), other) == Get(current, other)
  {
    var t := Trim(term);
    var edited := if t != "" then Set(current, "q", t) else Deleted(current, "q");
    if t != "" {
      GetAfterSet(current, "q", t, other);
    } else {
      GetAfterDelete(current, "q", other);
    }
    GetAfterDelete(edited, "page", other);
    GetAfterDelete(edited, "page", "q");
  }

  /** A submit differs from a clear only in `q`: the other parameters keep
      their places. */
  lemma SearchKeepsOthers(current: seq<Pair>, term: string)
    ensures Deleted(Deleted(SearchQuery(current, term), "q"), "page") == ClearQuery(current)
  {
    var t := Trim(term);
    var edited := if t != "" then Set(current, "q", t) else Deleted(current, "q");
    if t != "" {
      SetKeepsOthers(current, "q", t);
    } else {
      DeleteTwice(current, "q", "q");
    }
    assert Deleted(edited, "q") == Deleted(current, "q");
    DeleteTwice(edited, "page", "q");
    assert Deleted(Deleted(edited, "page"), "q") == Deleted(Deleted(edited, "q"), "page");
    DeleteTwice(Deleted(current, "q"), "page", "page");
  }

  /** A clear removes `q` and `page` and keeps every other parameter. */
  lemma ClearQueryReads(current: seq<Pair>, other: string)
    ensures Get(ClearQuery(current), "q").None? && Get(ClearQuery(current), "page").None?
    ensures other != "q" && other != "page" ==> Get(ClearQuery(current), other) == Get(current, other)
  {
    GetAfterDelete(current, "q", other);
    GetAfterDelete(Deleted(current, "q"), "page", other);
    GetAfterDelete(Deleted(current, "q"), "page", "q");
  }

  /** The component's state: the text in the box. */
  class SearchBar {
    var term: string

    /** `useState(searchParams.get('q') || '')`. */
    constructor (current: seq<Pair>)
      ensures term == TermOf(current)
    {
      term := TermOf(current);
    }

    /** The effect that reloads the box when the query changes. */
    method Sync(current: seq<Pair>)
      modifies this
      ensures term == TermOf(current)
    {
      term := TermOf(current);
    }

    /** `onChange` of the box. */
    method Type(value: string)
      modifies this
      ensures term == value
    {
      term := value;
    }

    /** `handleSearch`. */
    method HandleSearch(current: seq<Pair>) returns (nav: Navigation)
      ensures nav.Push? && nav.path == ListPath
      ensures nav.query == SearchQuery(current, term)
    {
      var params := new SearchParams(current);
      var t := Trim(term);
      if t != "" {
        params.SetParam("q", t);
      } else {
        params.DeleteParam("q");
      }
      params.DeleteParam("page");
      nav := Push(ListPath, params.pairs);
    }

    /** `handleClear`: empties the box as well. */
    method HandleClear(current: seq<Pair>) returns (nav: Navigation)
      modifies this
      ensures term == ""
      ensures nav == Push(ListPath, ClearQuery(current))
    {
      term := "";
      var params := new SearchParams(current);
      params.DeleteParam("q");
      params.DeleteParam("page");
      nav := Push(ListPath, params.pairs);
    }
  }
}

=== FILE: search_filter.dfy ===
/** The filter card of the property list (components/SearchFilter.tsx): the
    search text goes to `q` untrimmed, the type select to `type`; neither
    touches `page`. The reset button empties the text and leaves every
    parameter off. */
module SearchFilter {
  import opened Wrappers
  import opened QueryParams
  import PropertyCard

  /** The options of the type select, after `전체 유형` (the empty value). */
  const SelectableTypes: seq<string> := ["APARTMENT", "VILLA", "ONE_ROOM", "OFFICETEL", "COMMERCIAL", "OFFICE"]

  /** Each selectable type is one of the ten type codes; `HOUSE`, say,
      cannot be selected. */
  lemma SelectableTypesKnown()
    ensures forall t :: t in SelectableTypes ==> t in PropertyCard.PropertyTypes
    ensures "HOUSE" in PropertyCard.PropertyTypes && "HOUSE" !in SelectableTypes
  {
    assert PropertyCard.PropertyTypes[3] == "HOUSE";
    forall i | 0 <= i < |SelectableTypes| ensures SelectableTypes[i] != "HOUSE" {
      assert SelectableTypes[i][0] != 'H';
    }
  }

  /** `params.set(name, value)` for a non-empty value, `params.delete(name)`
      for the empty one. */
  function SetOrDelete(current: seq<Pair>, name: string, value: string): seq<Pair> {
    if value != "" then Set(current, name, value) else Deleted(current, name)
  }

  /** The edited parameter reads as the value (absent when empty); every
      other parameter, `page` included, reads as before and keeps its
      place. */
  lemma SetOrDeleteReads(current: seq<Pair>, name: string, value: string, other: string)
    ensures value != "" ==> Get(SetOrDelete(current, name, value), name) == Some(value)
    ensures value == "" ==> Get(SetOrDelete(current, name, value), name).None?
    ensures other != name ==> Get(SetOrDelete(current, name, value), other) == Get(current, other)
    ensures Deleted(SetOrDelete(current, name, value), name) == Deleted(current, name)
  {
    if value != "" {
      GetAfterSet(current, name, value, other);
      SetKeepsOthers(current, name, value);
    } else {
      GetAfterDelete(current, name, other);
      DeleteTwice(current, name, name);
    }
  }

  /** The component's state: the search text. */
  class Filter {
    var term: string

    constructor (current: seq<Pair>)
      ensures term == TermOf(current)
    {
      term := TermOf(current);
    }

    /** `onChange` of the text box. */
    method Type(value: string)
      modifies this
      ensures term == value
    {
      term := value;
    }

    /** The debounced effect once the timer fires: the text, untrimmed, in
        `q`, or no `q` for the empty text. */
    method TermEffect(current: seq<Pair>) returns (nav: Navigation)
      ensures nav == Replace("", SetOrDelete(current, "q", term))
    {
      var params := new SearchParams(current);
      if term != "" {
        params.SetParam("q", term);
      } else {
        params.DeleteParam("q");
      }
      nav := Replace("", params.pairs);
    }

    /** `onChange` of the type select. */
    method SelectType(current: seq<Pair>, value: string) returns (nav: Navigation)
      ensures nav == Replace("", SetOrDelete(current, "type", value))
    {
      var params := new SearchParams(current);
      if value != "" {
        params.SetParam("type", value);
      } else {
        params.DeleteParam("type");
      }
      nav := Replace("", params.pairs);
    }

    /** The reset button. */
    method Reset() returns (nav: Navigation)
      modifies this
      ensures term == ""
      ensures nav == Replace(ListPath, [])
    {
      term := "";
      nav := Replace(ListPath, []);
    }
  }
}

=== FILE: sorting.dfy ===
/** The orderings the database applies to query results (`orderBy: { order:
    'asc' }`, `orderBy: { createdAt: 'desc' }`), modelled as an insertion
    sort on a numeric key over the rows enumerated by ascending primary key. */
module Sorting {

  predicate SortedBy<T>(s: seq<T>, key: T -> real) {
    forall i, j :: 0 <= i < j < |s| ==> key(s[i]) <= key(s[j])
  }

  /** Places `x` before the first element whose key is not smaller. */
  function Insert<T>(x: T, s: seq<T>, key: T -> real): (r: seq<T>)
    ensures |r| == |s| + 1
    ensures multiset(r) == multiset(s) + multiset{x}
    ensures forall k :: 0 <= k < |r| ==> r[k] == x || r[k] in s
  {
    if s == [] then [x]
    else if key(x) <= key(s[0]) then [x] + s
    else
      assert s == [s[0]] + s[1..];
      [s[0]] + Insert(x, s[1..], key)
  }

  /** Inserting into a sorted sequence keeps it sorted; an element not above
      the first key goes in front. */
  lemma {:induction false} InsertSorted<T>(x: T, s: seq<T>, key: T -> real)
    requires SortedBy(s, key)
    ensures SortedBy(Insert(x, s, key), key)
    ensures s == [] || key(x) <= key(s[0]) ==> Insert(x, s, key) == [x] + s
  {
    if s != [] && key(x) > key(s[0]) {
      var tail := s[1..];
      assert SortedBy(tail, key);
      InsertSorted(x, tail, key);
      InsertedAbove(x, s, key);
      ConsSorted(s[0], Insert(x, tail, key), key);
    } else if s != [] {
      ConsSorted(x, s, key);
    }
  }

  /** Every key of `Insert(x, s[1..], key)` is at least the first key of a
      sorted `s` when `x`'s key is. */
  lemma InsertedAbove<T>(x: T, s: seq<T>, key: T -> real)
    requires SortedBy(s, key) && s != [] && key(x) > key(s[0])
    ensures forall k :: 0 <= k < |s| ==> key(s[0]) <= key(Insert(x, s[1..], key)[k])
  {
    var rest := Insert(x, s[1..], key);
    forall k | 0 <= k < |rest| ensures key(s[0]) <= key(rest[k]) {
      if rest[k] != x {
        var m :| 0 <= m < |s[1..]| && s[1..][m] == rest[k];
        assert s[m + 1] == rest[k];
      }
    }
  }

  /** A sorted sequence stays sorted under a head whose key is not above any
      of its keys. */
  lemma ConsSorted<T>(h: T, rest: seq<T>, key: T -> real)
    requires SortedBy(rest, key)
    requires forall k :: 0 <= k < |rest| ==> key(h) <= key(rest[k])
    ensures SortedBy([h] + rest, key)
  {
    var r := [h] + rest;
    forall i, j | 0 <= i < j < |r| ensures key(r[i]) <= key(r[j]) {
      assert r[j] == rest[j - 1];
      if i > 0 {
        assert r[i] == rest[i - 1];
      }
    }
  }

  /** The stable sort by ascending key. */
  function SortBy<T>(s: seq<T>, key: T -> real): (r: seq<T>)
    ensures |r| == |s|
    ensures multiset(r) == multiset(s)
    ensures SortedBy(r, key)
  {
    if s == [] then []
    else
      assert s == [s[0]] + s[1..];
      var rest := SortBy(s[1..], key);
      InsertSorted(s[0], rest, key);
      Insert(s[0], rest, key)
  }

  /** Sorting a sequence that is already in key order changes nothing. */
  lemma {:induction false} SortOfSorted<T>(s: seq<T>, key: T -> real)
    requires SortedBy(s, key)
    ensures SortBy(s, key) == s
  {
    if s != [] {
      assert SortedBy(s[1..], key);
      SortOfSorted(s[1..], key);
      InsertSorted(s[0], s[1..], key);
    }
  }

  /** No element occurs twice. */
  ghost predicate Distinct<T>(s: seq<T>) {
    forall i, j :: 0 <= i < j < |s| ==> s[i] != s[j]
  }

  /** In a distinct sequence every element occurs once in the multiset. */
  lemma {:induction false} DistinctCounts<T>(s: seq<T>)
    requires Distinct(s)
    ensures forall x :: multiset(s)[x] <= 1
  {
    if s != [] {
      var t := s[1..];
      assert forall k :: 0 <= k < |t| ==> t[k] == s[k + 1];
      assert Distinct(t);
      DistinctCounts(t);
      assert s == [s[0]] + t;
      assert s[0] !in t;
    }
  }

  /** An element at two positions occurs at least twice in the multiset. */
  lemma RepeatCounts<T>(s: seq<T>, i: nat, j: nat)
    requires i < j < |s| && s[i] == s[j]
    ensures multiset(s)[s[i]] >= 2
  {
    assert s == s[..j] + s[j..];
    assert s[i] in s[..j] && s[j] in s[j..];
  }

  /** Sorting never duplicates an element. */
  lemma SortByDistinct<T>(s: seq<T>, key: T -> real)
    requires Distinct(s)
    ensures Distinct(SortBy(s, key))
  {
    var r := SortBy(s, key);
    DistinctCounts(s);
    forall i, j | 0 <= i < j < |r| ensures r[i] != r[j] {
      if r[i] == r[j] {
        RepeatCounts(r, i, j);
      }
    }
  }

  /** The keys of `keys` below `bound`, ascending: the order in which the
      rows of a table are enumerated before a query sorts them. */
  function KeysBelow(keys: set<nat>, bound: nat): (r: seq<nat>)
    ensures forall k :: k in r <==> k in keys && k < bound
    ensures forall i, j :: 0 <= i < j < |r| ==> r[i] < r[j]
  {
    if bound == 0 then []
    else
      var prev := KeysBelow(keys, bound - 1);
      assert forall i :: 0 <= i < |prev| ==> prev[i] < bound - 1 by {
        forall i | 0 <= i < |prev| ensures prev[i] < bound - 1 {
          assert prev[i] in prev;
        }
      }
      if bound - 1 in keys then prev + [bound - 1] else prev
  }
}

=== FILE: text.dfy ===
/** The string primitives of JavaScript that the core relies on: the `\s`
    character class, `trim`, `startsWith`, `includes`, `toLowerCase` on ASCII,
    `join`, and the decimal rendering of a non-negative integer. */
module Text {

  /** JavaScript's white-space class `\s` (also what `String.prototype.trim`
      removes): the ECMAScript WhiteSpace and LineTerminator code points. */
  predicate IsJsSpace(c: char) {
    c == ' ' || c == '\t' || c == '\n' || c == '\r' || c == '\U{000B}' || c == '\U{000C}'
    || c == '\U{00A0}' || c == '\U{1680}' || ('\U{2000}' <= c <= '\U{200A}')
    || c == '\U{2028}' || c == '\U{2029}' || c == '\U{202F}' || c == '\U{205F}'
    || c == '\U{3000}' || c == '\U{FEFF}'
  }

  predicate IsAsciiUpper(c: char) { 'A' <= c <= 'Z' }
  predicate IsAsciiLower(c: char) { 'a' <= c <= 'z' }
  predicate IsDigit(c: char) { '0' <= c <= '9' }

  /** JavaScript's word class `\w`: ASCII letters, digits and underscore. */
  predicate IsWordChar(c: char) { IsAsciiUpper(c) || IsAsciiLower(c) || IsDigit(c) || c == '_' }

  /** `toLowerCase` restricted to ASCII letters; every other character is kept. */
  function LowerChar(c: char): (r: char)
    ensures IsAsciiUpper(c) ==> IsAsciiLower(r)
    ensures !IsAsciiUpper(c) ==> r == c
  {
    if IsAsciiUpper(c) then (c as int - 'A' as int + 'a' as int) as char else c
  }

  function Lower(s: string): (r: string)
    ensures |r| == |s|
    ensures forall i :: 0 <= i < |s| ==> r[i] == LowerChar(s[i])
  {
    if s == [] then [] else [LowerChar(s[0])] + Lower(s[1..])
  }

  predicate StartsWith(s: string, prefix: string) {
    |prefix| <= |s| && s[..|prefix|] == prefix
  }

  /** `s.includes(t)`: `t` occurs in `s` at some position. */
  predicate Contains(s: string, t: string)
    decreases |s|
  {
    StartsWith(s, t) || (s != [] && Contains(s[1..], t))
  }

  function TrimStart(s: string): (r: string)
    ensures |r| <= |s| && r == s[|s| - |r|..]
    ensures r != [] ==> !IsJsSpace(r[0])
    ensures forall i :: 0 <= i < |s| - |r| ==> IsJsSpace(s[i])
  {
    if s != [] && IsJsSpace(s[0]) then TrimStart(s[1..]) else s
  }

  function TrimEnd(s: string): (r: string)
    ensures |r| <= |s| && r == s[..|r|]
    ensures r != [] ==> !IsJsSpace(r[|r| - 1])
    ensures forall i :: |r| <= i < |s| ==> IsJsSpace(s[i])
  {
    if s != [] && IsJsSpace(s[|s| - 1]) then TrimEnd(s[..|s| - 1]) else s
  }

  /** `t` occurs in `s` starting at position `k`. */
  predicate InfixAt(s: string, t: string, k: int) {
    0 <= k && k + |t| <= |s| && s[k..k + |t|] == t
  }

  /** `s.trim()`: the longest infix of `s` that neither starts nor ends with
      white space. */
  function Trim(s: string): (r: string)
    ensures r != [] ==> !IsJsSpace(r[0]) && !IsJsSpace(r[|r| - 1])
    ensures r == [] <==> forall i :: 0 <= i < |s| ==> IsJsSpace(s[i])
    ensures exists k :: (InfixAt(s, r, k)
      && (forall i :: 0 <= i < k ==> IsJsSpace(s[i]))
      && (forall i :: k + |r| <= i < |s| ==> IsJsSpace(s[i])))
  {
    var t := TrimStart(s);
    var r := TrimEnd(t);
    var k := |s| - |t|;
    assert s[k..k + |r|] == t[..|r|];
    assert InfixAt(s, r, k);
    r
  }

  function DigitChar(d: nat): (c: char)
    requires d < 10
    ensures IsDigit(c)
  {
    ('0' as int + d) as char
  }

  /** `String(n)` for a non-negative integer: its decimal digits, without
      leading zeros. */
  function NatToString(n: nat): (r: string)
    ensures r != []
    ensures forall i :: 0 <= i < |r| ==> IsDigit(r[i])
  {
    if n < 10 then [DigitChar(n)] else NatToString(n / 10) + [DigitChar(n % 10)]
  }

  /** `parts.join(sep)`. */
  function Join(parts: seq<string>, sep: string): string {
    if parts == [] then ""
    else if |parts| == 1 then parts[0]
    else parts[0] + sep + Join(parts[1..], sep)
  }
}

=== FILE: upload_route.dfy ===
/** `POST /api/upload` (app/api/upload/route.ts): stages a batch of image
    files in the `temp` folder. The batch is all-or-nothing: one invalid file
    rejects the request before anything is saved. */
module UploadRoute {
  import opened Text
  import opened Wrappers
  import opened Forms
  import opened FileUpload

  datatype Response = Success(urls: seq<string>, message: string) | Failure(status: nat, error: string)

  const NoFiles: string := "업로드할 파일이 없습니다."

  /** The entry for the failing file at 0-based position `i`. */
  function FileError(i: nat, error: string): string {
    "파일 " + NatToString(i + 1) + ": " + error
  }

  /** The positions of the files that fail validation, ascending. */
  function RejectedIndices(files: seq<FileInfo>): (r: seq<nat>)
    ensures forall k: nat :: k in r <==> k < |files| && ValidateImageFile(files[k]).Rejected?
    ensures forall k :: 0 <= k < |r| ==> r[k] < |files|
    ensures forall a, b :: 0 <= a < b < |r| ==> r[a] < r[b]
  {
    if files == [] then []
    else
      var n := |files| - 1;
      var prev := RejectedIndices(files[..n]);
      assert forall i :: 0 <= i < n ==> files[..n][i] == files[i];
      if ValidateImageFile(files[n]).Rejected? then prev + [n] else prev
  }

  /** `errs` holds, for each position in `r` and in that order, the entry
      naming that (rejected) file and its error. */
  predicate Aligned(files: seq<FileInfo>, errs: seq<string>, r: seq<nat>) {
    && |errs| == |r|
    && forall k :: 0 <= k < |r| ==>
         && r[k] < |files| && ValidateImageFile(files[r[k]]).Rejected?
         && errs[k] == FileError(r[k], ValidateImageFile(files[r[k]]).error)
  }

  /** The entries for every failing file, in file order: one per rejected
      file, naming its position and its error, and nothing else. */
  function ValidationErrors(files: seq<FileInfo>): (errs: seq<string>)
    ensures Aligned(files, errs, RejectedIndices(files))
    ensures errs == [] <==> forall i :: 0 <= i < |files| ==> ValidateImageFile(files[i]).Accepted?
  {
    if files == [] then []
    else
      var n := |files| - 1;
      var prev := ValidationErrors(files[..n]);
      AlignedPrefix(files, n, prev, RejectedIndices(files[..n]));
      match ValidateImageFile(files[n])
      case Accepted => prev
      case Rejected(e) =>
        AlignedAppend(files, prev, RejectedIndices(files[..n]), n);
        prev + [FileError(n, e)]
  }

  lemma AlignedPrefix(files: seq<FileInfo>, n: nat, errs: seq<string>, r: seq<nat>)
    requires n <= |files| && Aligned(files[..n], errs, r)
    ensures Aligned(files, errs, r)
  {
    forall k | 0 <= k < |r|
      ensures r[k] < |files| && ValidateImageFile(files[r[k]]).Rejected?
      ensures errs[k] == FileError(r[k], ValidateImageFile(files[r[k]]).error)
    {
      assert files[..n][r[k]] == files[r[k]];
    }
  }

  lemma AlignedAppend(files: seq<FileInfo>, errs: seq<string>, r: seq<nat>, n: nat)
    requires n < |files| && Aligned(files, errs, r) && ValidateImageFile(files[n]).Rejected?
    ensures Aligned(files, errs + [FileError(n, ValidateImageFile(files[n]).error)], r + [n])
  {
  }

  /** The URL the `i`-th file is saved under; the clock reading and the random
      fragment of that call are `clock(i)` and `random(i)`. */
  function SavedUrl(files: seq<FileInfo>, clock: nat -> nat, random: nat -> string, i: nat): string
    requires i < |files|
  {
    StoredUrl(TempFolder, UniqueFileName(files[i].name, clock(i), random(i)))
  }

  function SavedUrls(files: seq<FileInfo>, clock: nat -> nat, random: nat -> string): (urls: seq<string>)
    ensures |urls| == |files|
  {
    seq(|files|, i requires 0 <= i < |files| => SavedUrl(files, clock, random, i))
  }

  function UploadedMessage(count: nat): string {
    NatToString(count) + "개의 이미지가 업로드되었습니다."
  }

  method Post(fs: FileStore, session: Option<SessionUser>, files: seq<FileInfo>,
              clock: nat -> nat, random: nat -> string) returns (res: Response)
    modifies fs
    ensures !HasUserId(session) ==> res == Failure(401, Unauthenticated) && fs.files == old(fs.files)
    ensures HasUserId(session) && files == [] ==> res == Failure(400, NoFiles) && fs.files == old(fs.files)
    ensures HasUserId(session) && files != [] && ValidationErrors(files) != [] ==>
      res == Failure(400, Join(ValidationErrors(files), ", ")) && fs.files == old(fs.files)
    ensures HasUserId(session) && files != [] && ValidationErrors(files) == [] ==>
      && res == Success(SavedUrls(files, clock, random), UploadedMessage(|files|))
      && fs.files == old(fs.files) + AsSet(SavedUrls(files, clock, random))
  {
    if !HasUserId(session) {
      return Failure(401, Unauthenticated);
    }
    if files == [] {
      return Failure(400, NoFiles);
    }

    var errors := CollectErrors(files);
    if errors != [] {
      return Failure(400, Join(errors, ", "));
    }
    var urls := SaveAll(fs, files, clock, random);
    res := Success(urls, UploadedMessage(|files|));
  }

  /** The first loop of the handler: one entry per failing file. */
  method CollectErrors(files: seq<FileInfo>) returns (errors: seq<string>)
    ensures errors == ValidationErrors(files)
  {
    errors := [];
    for i := 0 to |files|
      invariant errors == ValidationErrors(files[..i])
    {
      assert files[..i + 1][..i] == files[..i];
      var validation := ValidateImageFile(files[i]);
      if validation.Rejected? {
        errors := errors + [FileError(i, validation.error)];
      }
    }
    assert files[..|files|] == files;
  }

  /** The second loop of the handler: saves every file to `temp`, in order. */
  method SaveAll(fs: FileStore, files: seq<FileInfo>, clock: nat -> nat, random: nat -> string)
    returns (urls: seq<string>)
    modifies fs
    ensures urls == SavedUrls(files, clock, random)
    ensures fs.files == old(fs.files) + AsSet(urls)
  {
    urls := [];
    for i := 0 to |files|
      invariant |urls| == i
      invariant forall k :: 0 <= k < i ==> urls[k] == SavedUrl(files, clock, random, k)
      invariant fs.files == old(fs.files) + AsSet(urls)
    {
      var url := fs.Save(files[i], TempFolder, clock(i), random(i));
      AsSetAppend(urls, url);
      SavedPrefixGrows(files, clock, random, urls, url);
      urls := urls + [url];
    }
  }

  lemma SavedPrefixGrows(files: seq<FileInfo>, clock: nat -> nat, random: nat -> string, urls: seq<string>, url: string)
    requires |urls| < |files|
    requires forall k :: 0 <= k < |urls| ==> urls[k] == SavedUrl(files, clock, random, k)
    requires url == SavedUrl(files, clock, random, |urls|)
    ensures forall k :: 0 <= k <= |urls| ==> (urls + [url])[k] == SavedUrl(files, clock, random, k)
  {
  }
}

=== FILE: url_search_params.dfy ===
/** The browser's `URLSearchParams` as the search components use it: an
    ordered list of name/value pairs, edited in place by `set` and `delete`.
    The operations follow the URL standard's definitions. */
module QueryParams {
  import opened Wrappers

  type Pair = (string, string)

  /** A router call: `push` or `replace` to a path with a query. An empty
      path stays on the current page. */
  datatype Navigation = Push(path: string, query: seq<Pair>) | Replace(path: string, query: seq<Pair>)

  const ListPath: string := "/admin/properties"

  predicate HasName(ps: seq<Pair>, name: string) {
    exists i :: 0 <= i < |ps| && ps[i].0 == name
  }

  /** `get(name)`: the value of the first pair with that name. */
  function Get(ps: seq<Pair>, name: string): (r: Option<string>)
    ensures r.None? <==> !HasName(ps, name)
  {
    if ps == [] then None
    else if ps[0].0 == name then Some(ps[0].1)
    else
      assert forall i :: 1 <= i < |ps| ==> ps[1..][i - 1] == ps[i];
      Get(ps[1..], name)
  }

  /** `get('q') || ''`: the text a search box shows for a query. */
  function TermOf(current: seq<Pair>): string {
    match Get(current, "q")
    case Some(q) => q
    case None => ""
  }

  /** `delete(name)`: every pair with that name goes; the rest keep their
      order. */
  function Deleted(ps: seq<Pair>, name: string): (r: seq<Pair>)
    ensures forall p :: p in r <==> p in ps && p.0 != name
    ensures |r| <= |ps|
  {
    if ps == [] then []
    else if ps[0].0 == name then Deleted(ps[1..], name)
    else [ps[0]] + Deleted(ps[1..], name)
  }

  /** The pairs with the first pair named `name` given `value` and the later
      pairs of that name dropped. */
  function ReplacedFirst(ps: seq<Pair>, name: string, value: string): (r: seq<Pair>)
  {
    if ps == [] then []
    else if ps[0].0 == name then [(name, value)] + Deleted(ps[1..], name)
    else [ps[0]] + ReplacedFirst(ps[1..], name, value)
  }

  /** `set(name, value)`: the first pair of that name takes the value and the
      others of that name go; without one, the pair is appended. */
  function Set(ps: seq<Pair>, name: string, value: string): seq<Pair> {
    if HasName(ps, name) then ReplacedFirst(ps, name, value) else ps + [(name, value)]
  }

  /** The object `new URLSearchParams(...)` builds. */
  class SearchParams {
    var pairs: seq<Pair>

    constructor (init: seq<Pair>)
      ensures pairs == init
    {
      pairs := init;
    }

    method SetParam(name: string, value: string)
      modifies this
      ensures pairs == Set(old(pairs), name, value)
    {
      pairs := Set(pairs, name, value);
    }

    method DeleteParam(name: string)
      modifies this
      ensures pairs == Deleted(old(pairs), name)
    {
      pairs := Deleted(pairs, name);
    }
  }

  lemma {:induction false} GetDeleted(ps: seq<Pair>, name: string, other: string)
    ensures Get(Deleted(ps, name), name).None?
    ensures other != name ==> Get(Deleted(ps, name), other) == Get(ps, other)
  {
    if ps != [] {
      GetDeleted(ps[1..], name, other);
    }
  }

  lemma {:induction false} GetReplaced(ps: seq<Pair>, name: string, value: string, other: string)
    requires HasName(ps, name)
    ensures Get(ReplacedFirst(ps, name, value), name) == Some(value)
    ensures other != name ==> Get(ReplacedFirst(ps, name, value), other) == Get(ps, other)
  {
    if ps[0].0 != name {
      var j :| 0 <= j < |ps| && ps[j].0 == name;
      assert ps[1..][j - 1].0 == name;
      GetReplaced(ps[1..], name, value, other);
    } else {
      GetDeleted(ps[1..], name, other);
    }
  }

  lemma {:induction false} GetAppended(ps: seq<Pair>, p: Pair, other: string)
    requires !HasName(ps, p.0)
    ensures Get(ps + [p], p.0) == Some(p.1)
    ensures other != p.0 ==> Get(ps + [p], other) == Get(ps, other)
  {
    if ps != [] {
      assert (ps + [p])[1..] == ps[1..] + [p];
      assert !HasName(ps[1..], p.0) by {
        forall i | 0 <= i < |ps[1..]| ensures ps[1..][i].0 != p.0 {
          assert ps[1..][i] == ps[i + 1];
        }
      }
      GetAppended(ps[1..], p, other);
    }
  }

  /** After `set(name, value)`, `get(name)` is the value and every other
      name reads as before. */
  lemma GetAfterSet(ps: seq<Pair>, name: string, value: string, other: string)
    ensures Get(Set(ps, name, value), name) == Some(value)
    ensures other != name ==> Get(Set(ps, name, value), other) == Get(ps, other)
  {
    if HasName(ps, name) {
      GetReplaced(ps, name, value, other);
    } else {
      GetAppended(ps, (name, value), other);
    }
  }

  /** After `delete(name)`, `get(name)` is null and every other name reads as
      before. */
  lemma GetAfterDelete(ps: seq<Pair>, name: string, other: string)
    ensures Get(Deleted(ps, name), name).None?
    ensures other != name ==> Get(Deleted(ps, name), other) == Get(ps, other)
  {
    GetDeleted(ps, name, other);
  }

  /** Deleting twice is deleting once, and deletions of two names commute. */
  lemma {:induction false} DeleteTwice(ps: seq<Pair>, a: string, b: string)
    ensures Deleted(Deleted(ps, a), a) == Deleted(ps, a)
    ensures Deleted(Deleted(ps, a), b) == Deleted(Deleted(ps, b), a)
  {
    if ps != [] {
      DeleteTwice(ps[1..], a, b);
      if ps[0].0 != a && ps[0].0 != b {
        assert Deleted(ps, a) == [ps[0]] + Deleted(ps[1..], a);
        assert Deleted(ps, b) == [ps[0]] + Deleted(ps[1..], b);
      }
    }
  }

  lemma {:induction false} DeletedAfterReplaced(ps: seq<Pair>, name: string, value: string)
    ensures Deleted(ReplacedFirst(ps, name, value), name) == Deleted(ps, name)
  {
    if ps != [] {
      if ps[0].0 == name {
        DeleteTwice(ps[1..], name, name);
      } else {
        DeletedAfterReplaced(ps[1..], name, value);
      }
    }
  }

  lemma {:induction false} DeletedAfterAppend(ps: seq<Pair>, p: Pair)
    ensures Deleted(ps + [p], p.0) == Deleted(ps, p.0)
  {
    if ps != [] {
      assert (ps + [p])[1..] == ps[1..] + [p];
      DeletedAfterAppend(ps[1..], p);
    } else {
      assert Deleted([p], p.0) == Deleted([p][1..], p.0);
    }
  }

  /** `set` touches only pairs of its own name: removing that name
      afterwards leaves exactly the other pairs, in their order. */
  lemma SetKeepsOthers(ps: seq<Pair>, name: string, value: string)
    ensures Deleted(Set(ps, name, value), name) == Deleted(ps, name)
  {
    if HasName(ps, name) {
      DeletedAfterReplaced(ps, name, value);
    } else {
      DeletedAfterAppend(ps, (name, value));
    }
  }
}

=== FILE: wrappers.dfy ===
/** Option and Result, the two failure-carrying wrappers the model uses for
    JavaScript's null / undefined values and for thrown errors. */
module Wrappers {

  datatype Option<+T> = None | Some(value: T) {
    /** The value, or `default` when absent (JavaScript's `x ?? default`). */
    function GetOr(default: T): T {
      match this
      case Some(v) => v
      case None => default
    }
  }

  /** `Err` carries the message of the error the source throws or returns. */
  datatype Result<+T> = Ok(value: T) | Err(error: string)
}
